=== FILE: README.md ===
# Sales-training session core, in Dafny

A model of the deterministic core of a voice sales-training web service
(`api/index.py`, a Flask application). A trainee picks a customer persona and
holds a voice call; the server then assembles a transcript, has it graded, and
produces a PDF report. Everything that talks to the outside world (the voice
credential service, speech recognition, the grading model, the file system,
the clock, UUIDs) is an argument of the model. What remains is modelled here:

- **Transcript assembly** (`transcript.dfy`). The recogniser's segments become
  `SALES REP` lines and the client's turns become `CUSTOMER` lines. The rep
  segments come first, then the customer turns, and the whole list is stably
  sorted by timestamp. Blank segments are dropped, and the rest render as
  `SPEAKER: text` joined by blank lines. A merged text that is too short falls
  back to the client's own transcript; the text graded must strip to at least
  10 characters.
- **The session table** (`sessions.dfy`, `lifecycle.dfy`). This is the
  in-memory `sessions` dict. It keeps its insertion order, because that order
  breaks date ties in the report listing. The model covers its four
  operations: `create_session`, `grade_session`, `get_report` and
  `list_reports`.
- **Sanitising report text** (`sanitize.dfy`). It applies seven typographic
  substitutions in order, then a Latin-1 encode-with-replace.
- **Presentation helpers** (`formatting.dfy`):
  - the `<m>m <s>s` duration text, Python floor division by 60;
  - the green/amber/red score bands of the report.
- **The handoff classifier** (`handoff.dfy`). In the page script, a customer
  reply matching any rejection pattern is rejected. Otherwise it is accepted if
  any acceptance pattern matches, and unclear if not.
- **Supporting modules**:
  - `text.dfy`: Python `str.strip`, `join`, code-point string order,
    decimal `str(int)`, and `int()` applied to text;
  - `sorting.dfy`: a stable sort whose contract pins its output down;
  - `wrappers.dfy`: `Option`.

The rep speaker label is `SALES REP`, with a space, as written at
api/index.py:1805, 1813 and 1839.

## Model

| member | source | states |
|---|---|---|
| Text.Strip | api/index.py:1797-1802 | `str.strip()`: the result is the slice of the input between its leading and its trailing whitespace; it is empty exactly when the input is all whitespace, and otherwise starts and ends with a non-space |
| Text.StripIdempotent | api/index.py:1852 | stripping a stripped text changes nothing |
| Text.IntToStrRoundTrip | api/index.py:2330 | the decimal text of an integer reads back as that integer |
| Text.StripPadded | api/index.py:1852 | `strip` removes exactly the whitespace around a text that starts and ends with a non-space |
| Text.IntFromText | api/index.py:2328 | Python's `int()` on text: a text is read exactly when, once stripped and stripped of one leading `+` or `-`, it is a non-empty run of ASCII digits; a blank text is never read |
| Text.IntFromTextRoundTrip | api/index.py:2328 | `int()` reads back an integer's decimal text with any whitespace around it, and with a leading `+` when the integer is not negative |
| Sorting.Sort | api/index.py:1842 | `list.sort(key=…)`: the output is ordered by key, is a permutation of the input, and keeps the input order among elements of equal key (stability) |
| Sorting.StableSortUnique | api/index.py:1842 | two sequences that are both ordered by key and agree on the order within every key are equal, so the stable sort's result is unique |
| Sorting.PermutationDistinctBy | api/index.py:2332 | reordering a list cannot make two entries share an id |
| Transcript.RepFromSegments | api/index.py:1796-1808 | the rep segments are the recognised segments, each labelled `SALES REP` with its stripped text and start time, in the recogniser's order, with the blank ones dropped by the same filter the rendering uses, so order and repeats are kept (see `KeptCounts`, `KeptAtPositions`); each is non-blank and already stripped |
| Transcript.RepFromSegmentsMembers | api/index.py:1796-1808 | a recognised segment yields a `SALES REP` segment with its stripped text and start time exactly when its text is not blank |
| Transcript.RepSegments | api/index.py:1775-1822 | no recognition gives no rep segments; a recognition with segments gives `RepFromSegments` of them; one without segments gives its whole text, unstripped, as one segment at offset 0 when that text is non-empty, and nothing otherwise; every segment is the rep's |
| Transcript.CustomerSegments | api/index.py:1830-1834 | one `CUSTOMER` segment per client turn, in order, carrying the turn's text (`""` when missing) and timestamp (0 when missing) |
| Transcript.Merge | api/index.py:1841-1842 | the merged list is in non-decreasing time order, holds exactly the rep and customer segments, and within one timestamp lists the rep segments (in their order) before the customer ones (in theirs) |
| Transcript.RepBeforeCustomerOnTies | api/index.py:1841-1842 | of two merged segments with equal timestamps, a rep segment precedes a customer segment |
| Transcript.Kept | api/index.py:1845-1846 | a segment is kept exactly when its text is not blank |
| Transcript.KeptCounts | api/index.py:1844-1847 | each segment with text is kept exactly as many times as it occurs, and a blank one never |
| Transcript.NonBlankPositions | api/index.py:1844-1847 | indices of segments with text, in increasing order |
| Transcript.NonBlankPositionsComplete | api/index.py:1844-1847 | every index of a segment with text is among the positions, so they are exactly the indices of the segments with text |
| Transcript.KeptAtPositions | api/index.py:1844-1847 | the kept segments are, one for one and in order, the segments at those increasing indices: the filter keeps the input order |
| Transcript.KeptPreservesOrder | api/index.py:1845-1847 | dropping blank segments keeps time order |
| Transcript.Lines | api/index.py:1844-1847 | one `SPEAKER: text` line for each kept segment, in order |
| Transcript.MergedLines | api/index.py:1829-1848 | one `SPEAKER: text` line per occurrence of a non-blank rep or customer segment, counted with repeats, in time order |
| Transcript.KeptRepBeforeCustomerOnTies | api/index.py:1841-1847 | among the rendered lines, on equal timestamps every rep line precedes every customer line |
| Transcript.SegmentHasLine | api/index.py:1844-1847 | every segment with text gives its `SPEAKER: text` line |
| Transcript.CustomerTurnHasLine | api/index.py:1830-1847 | every customer turn with text gives its `CUSTOMER: text` line in the merged transcript |
| Transcript.MergedTranscript | api/index.py:1828-1848 | the merged text is empty exactly when no rep segment and no customer turn carries text (including when there are none at all) |
| Transcript.Render | api/index.py:1844-1848 | the rendered transcript is empty exactly when every segment is blank |
| Transcript.Assemble | api/index.py:1828-1858 | a transcript, when there is one, is the merged text or the client's fallback and strips to at least 10 characters; there is none exactly when neither is usable |
| Transcript.ChooseTranscript | api/index.py:1852-1858 | a text is usable when it is non-empty and strips to at least 10 characters; the merged text is used when usable, else the fallback when usable, else there is no transcript; whatever is chosen strips to at least 10 characters |
| Transcript.BlankSourcesFallBack | api/index.py:1829-1858 | when neither source carries text, grading uses the fallback or fails |
| Transcript.TwoTurnExample | api/index.py:1829-1848 | a rep line at 0.2 s and a customer line at 0.5 s render as `SALES REP: Hi there`, a blank line, `CUSTOMER: Hello` |
| Sanitize.EncodeLatin1 | api/index.py:2120 | encode-with-replace keeps the length, keeps Latin-1 characters and turns each other character into `?` |
| Sanitize.SanitizeText | api/index.py:2101-2120 | `None` and `""` give `""`; every output character is Latin-1 |
| Sanitize.SanitizeCharwise | api/index.py:2105-2120 | the substitution loop followed by the encoding equals replacing each character independently (₹→`Rs.`, €→`EUR`, £→`GBP`, dashes→`-`, …→`...`, •→`*`, other non-Latin-1→`?`) |
| Sanitize.PlainLatin1Unchanged | api/index.py:2105-2120 | a text of Latin-1 characters other than £ passes through unchanged |
| Sanitize.SanitizeIdempotent | api/index.py:2101-2120 | sanitising twice is sanitising once |
| Formatting.SplitDuration | api/index.py:2141 | `(d//60, d%60)` recombines to `d`, the seconds lie in [0, 60), and for `d >= 0` the minutes are between 0 and `d` |
| Formatting.DurationRoundTrip | api/index.py:2330 | the `<m>m <s>s` text reads back as the duration it was made from |
| Formatting.DurationExample | api/index.py:2330 | 125 seconds reads `2m 5s` |
| Formatting.ScoreBand | api/index.py:2147-2152 | green exactly from 75, amber exactly from 50 below 75, red below 50 |
| Formatting.ScoreBandMonotone | api/index.py:2228-2233 | a higher score never gets a lower band |
| Formatting.ScoreColour | api/index.py:2147-2152 | the colour a score is printed in: green exactly from 75, amber exactly from 50 below 75, red exactly below 50; the three colours differ, so the colour alone tells the band |
| Handoff.FirstMatch | api/index.py:1602 | the index of the first matching pattern, or -1 exactly when none matches |
| Handoff.Classify | api/index.py:1575-1610 | rejected exactly when a rejection pattern matches; accepted exactly when none does and an acceptance pattern does; unclear otherwise |
| Handoff.RejectionOutranksAcceptance | api/index.py:1601-1607 | a matching rejection pattern decides the reply whatever the acceptance patterns are |
| Sessions.Put | api/index.py:1723 | a dict assignment: the new key goes last, a present key keeps its place |
| Sessions.Create | api/index.py:1690-1741 | an unknown persona is refused and stores nothing; a known one stores an active session with no transcript and no grading under the given id, answers with the credential and the persona's voice, and leaves every other id as it was |
| Sessions.ScoreOf | api/index.py:2090 | `int(grading.get("overall_score", 0))`: a missing score is 0, a number is itself, `true` is 1 and `false` 0, a text is read as `int()` reads text; only a score that is not a number or a boolean can fail to convert |
| Sessions.ScoreOfText | api/index.py:2328 | a score sent as decimal text, with or without whitespace around it, reads as that integer |
| Sessions.RequestTranscript | api/index.py:1770-1858 | an `ai_responses` field that is not valid JSON counts as no customer turns; any transcript chosen strips to at least 10 characters |
| Sessions.GradeOutcome | api/index.py:1764-2098 | the reply is decided by the first failing step, in order: no transcript, unknown persona, no grading, failed report, unreadable score; otherwise the graded score |
| Sessions.GradedRow | api/index.py:1768-2084 | the duration is always written; with no transcript nothing else changes; with one, it is stored; once grading arrives it is stored with the profile and the `completed` status; the report path is written only after a successful report |
| Sessions.GradeAssembled | api/index.py:1764-2098 | with the transcript already assembled: an unknown session id answers "Session not found" and leaves the table unchanged; otherwise the reply is `GradeOutcome`, the session's row becomes `GradedRow`, and no other row or key changes |
| Sessions.Grade | api/index.py:1764-1860 | an unknown id changes nothing; "No transcript available" is answered exactly when neither the merged transcript nor the fallback is usable, and then the stored transcript is untouched; otherwise the stored transcript is the merged one when usable, else the fallback, and it strips to at least 10 characters |
| Sessions.GradeKeepsValid | api/index.py:1764-2098 | grading keeps every id listed once, stored under itself, with a known persona |
| Sessions.GetReport | api/index.py:2296-2315 | 404 for an unknown id; the file is sent exactly when it exists or can be rebuilt from a non-empty grading; 400 exactly when it is missing and there is no grading; 500 exactly when the rebuild fails; only a rebuild writes, and only the report path |
| Sessions.GetReportKeepsValid | api/index.py:2296-2315 | fetching a report keeps the table well-formed |
| Sessions.DateOf | api/index.py:2329 | `created_at[:10]`: the first ten characters, or all of a shorter text |
| Sessions.Summarize | api/index.py:2324-2331 | the row of a listed session: its id, the persona's display name, the integer score, the first 10 characters of its creation time, the duration text; none when the persona or the score cannot be read |
| Sessions.Rows | api/index.py:2321-2331 | the rows are exactly the summaries of the completed, graded sessions; building fails exactly when one of them cannot be summarised |
| Sessions.RowsDistinct | api/index.py:2322 | no session appears twice among the rows |
| Sessions.NotOlderIsTotalOrder | api/index.py:2332 | reversed string order on dates is a total order |
| Sessions.ListReports | api/index.py:2318-2332 | exactly the completed, graded sessions, each once, newest date first, with rows of one date in table order |
| Lifecycle.CreatedNotListed | api/index.py:1723-1730 | a freshly created session is not listed |
| Lifecycle.GradedIsListed | api/index.py:2078-2090 | a successful grading with a non-empty answer lists the session with the answered score |
| Lifecycle.ReportAvailableAfterGrade | api/index.py:2303-2315 | after such a grading the report can be fetched |
| Lifecycle.EmptyGradingIsUnlisted | api/index.py:2078-2090 | an empty JSON answer completes the session with score 0, but the listing skips it and a report rebuild answers 400 |
| Lifecycle.TextScoreListedAfterFailedReport | api/index.py:2078-2332 | a score sent as text makes the report fail, so grading answers with a failure, yet the session is completed and listed with that score read as an integer |
| Lifecycle.RegradeOverwrites | api/index.py:1768-2084 | grading a session again replaces the earlier grading, transcript and duration |
| Lifecycle.GetReportIdempotent | api/index.py:2303-2313 | fetching a report twice writes the table no more than fetching it once |
| Lifecycle.FirstCallScenario | api/index.py:1690-2332 | one call end to end: create a Pro session, grade it at 125 s from any usable fallback text with score 82, see it listed as the only row with duration `2m 5s`, fetch its report |

## Left out

- The network calls are not modelled:
  - the realtime voice credential request (api/index.py:1702-1721);
  - Whisper transcription (1783-1794);
  - the chat-completion grading (2071-2077).
  Their results are inputs: an optional credential, an optional `Recognition`, and optional decoded grading JSON.
- Recognition errors part-way through the segment loop are not modelled. The recogniser's answer is taken as a whole or as absent.
- Files are not modelled. The temporary audio file, the PDF file and its existence check become booleans: "report written" and "file exists".
- The PDF layout is left out, other than the score bands and the sanitiser. A report that fails for any reason, including a non-numeric score in the grading, is the "report written = false" input.
- `uuid4()[:8]` and `datetime.now()` are parameters. There is no collision check in the source, so a reused id overwrites the earlier session, as `Create` states.
- Concurrent requests are left out. Each operation is one atomic step on the table.
- Timestamps are `real` and scores and durations are `int`. JSON numbers that are floats are not modelled.
- Sessions.ScoreOf: Python's `int()` also accepts underscores between digits and non-ASCII decimal digits in a text. The model reads only an optional sign and ASCII digits, so it treats such a score as unreadable.
- `GradeError.ScoreUnreadable` after a written report does not happen in the source. Writing the report compares the raw score with 75 (api/index.py:2147) before `int()` runs (2090), so every score `int()` refuses has already made the report fail. The model leaves "report written" unconstrained, so its `GradeOutcome` can still give that answer.
- The error texts of `grade_session`'s failure replies are not modelled. The reply names the failing step instead (`GradeError`).
- A grading answer that decodes to something other than an object is left out.
- A turn text that is not a string is left out.
- A malformed `ai_responses` list is left out, because the model's types cannot express it. This covers a value that decodes but is not a list, a list item that is not an object, and a turn `timestamp` that is JSON `null` or not a number. On each of these the source raises during the merge or the sort (api/index.py:1830-1834, 1842) and answers `{"success": False, "error": ...}` after `duration` has been written (1768). `ClientTurn` maps only a missing key to `None`. The page script always sends a list of objects with a text and a numeric timestamp (1432, 1518).
- A request whose duration is not an integer is left out.
- The persona prompts and the grading prompt are configuration text and are not modelled. The persona registry keeps each persona's name and voice only.
- Sanitize.Replacements: the quote entries at api/index.py:2111-2114 are omitted. Lines 2111 and 2112 map `"` to itself, so they change nothing. Lines 2113 and 2114 each start with `'''`, which opens a triple-quoted string. Together they form a single entry: its key is the 15-character text `: "'",` followed by a line break and eight spaces, and it maps that text to `'`.
- Sanitize.SanitizeText: does not apply the entry formed by lines 2113-2114. Its contract, and `Sanitize.PlainLatin1Unchanged`, hold for the model without it.
- Sessions.GetReport: the 500 message carries the exception text after "Failed to generate report"; the model keeps only the fixed prefix.
- Handoff.Classify: the regular expressions are abstract. A pattern matching a reply is an input relation.
- The rest of the page script is left out: WebRTC, recording, DOM and timers.
- The handoff initiation check is left out.
- The HTML page is left out.
- `api/app.py` is a stub with no logic.

=== FILE: formatting.dfy ===
/** Small presentation helpers of api/index.py: the `{d//60}m {d%60}s`
    duration text of the report header and the reports list, and the
    three-colour banding of scores in the report. */
module Formatting {

  import opened Wrappers
  import opened Text

  const SecondsPerMinute := 60

  /** Python's `(d // 60, d % 60)`. Python floors and Dafny divides
      Euclidean-style; with the positive divisor 60 both agree on every
      integer, negative ones included. */
  function SplitDuration(d: int): (r: (int, nat))
    ensures SecondsPerMinute * r.0 + r.1 == d
    ensures r.1 < SecondsPerMinute
    ensures d >= 0 ==> r.0 >= 0 && r.0 <= d
  {
    (d / SecondsPerMinute, d % SecondsPerMinute)
  }

  /** The `"<m>m <s>s"` text. */
  function FormatDuration(d: int): string
  {
    var (m, s) := SplitDuration(d);
    IntToStr(m) + "m " + NatToStr(s) + "s"
  }

  /** Index of the first `c` in `t`, if any. */
  function FirstIndex(t: string, c: char): (r: Option<nat>)
    ensures r.Some? ==> r.value < |t| && t[r.value] == c && c !in t[..r.value]
    ensures r.None? ==> c !in t
  {
    if |t| == 0 then None
    else if t[0] == c then Some(0)
    else match FirstIndex(t[1..], c)
      case None => None
      case Some(i) =>
        assert t[..i + 1] == [t[0]] + t[1..][..i];
        Some(i + 1)
  }

  /** Reads a `"<m>m <s>s"` text back into seconds; the seconds field must be
      below 60. */
  function ParseDuration(t: string): Option<int>
  {
    match FirstIndex(t, 'm')
    case None => None
    case Some(i) =>
      if i + 2 < |t| && t[i + 1] == ' ' && t[|t| - 1] == 's' then
        match (ParseInt(t[..i]), ParseNat(t[i + 2..|t| - 1]))
        case (Some(m), Some(s)) => if s < SecondsPerMinute then Some(SecondsPerMinute * m + s) else None
        case _ => None
      else None
  }

  lemma NatToStrHasNoLetter(n: nat)
    ensures 'm' !in NatToStr(n)
  {
  }

  /** The duration text is lossless: reading it back gives the duration. */
  lemma DurationRoundTrip(d: int)
    ensures ParseDuration(FormatDuration(d)) == Some(d)
  {
    var (m, s) := SplitDuration(d);
    var a := IntToStr(m);
    var b := NatToStr(s);
    var t := a + "m " + b + "s";
    assert 'm' !in a by {
      if m < 0 {
        NatToStrHasNoLetter(-m);
        assert a == "-" + NatToStr(-m);
      } else {
        NatToStrHasNoLetter(m);
      }
    }
    assert t[|a|] == 'm';
    assert t[..|a|] == a;
    assert FirstIndex(t, 'm') == Some(|a|);
    assert t[|a| + 2..|t| - 1] == b;
    IntToStrRoundTrip(m);
    NatToStrRoundTrip(s);
  }

  /** A call of two minutes and five seconds reads `2m 5s`. */
  lemma DurationExample()
    ensures FormatDuration(125) == "2m 5s"
  {
    assert SplitDuration(125) == (2, 5);
    assert IntToStr(2) == "2" && NatToStr(5) == "5";
  }

  /** The colour band of a score in the report. */
  datatype Band = Green | Amber | Red

  const GreenFrom := 75
  const AmberFrom := 50

  /** Each band is exactly one interval of scores. */
  function ScoreBand(score: int): (b: Band)
    ensures b == Green <==> GreenFrom <= score
    ensures b == Amber <==> AmberFrom <= score < GreenFrom
    ensures b == Red <==> score < AmberFrom
  {
    if score >= GreenFrom then Green
    else if score >= AmberFrom then Amber
    else Red
  }

  /** The text colour of each band, as RGB. */
  function BandColour(b: Band): (int, int, int)
  {
    match b
    case Green => (39, 174, 96)
    case Amber => (241, 196, 15)
    case Red => (231, 76, 60)
  }

  function BandRank(b: Band): nat
  {
    match b
    case Red => 0
    case Amber => 1
    case Green => 2
  }

  /** A higher score never gets a lower band. */
  lemma ScoreBandMonotone(a: int, b: int)
    requires a <= b
    ensures BandRank(ScoreBand(a)) <= BandRank(ScoreBand(b))
  {
  }

  /** The text colour the report sets before it prints a score: the overall
      score and each category score alike. Each colour marks exactly one
      interval of scores. */
  function ScoreColour(score: int): (c: (int, int, int))
    ensures c == BandColour(Green) <==> GreenFrom <= score
    ensures c == BandColour(Amber) <==> AmberFrom <= score < GreenFrom
    ensures c == BandColour(Red) <==> score < AmberFrom
  {
    BandColour(ScoreBand(score))
  }
}

=== FILE: handoff.dfy ===
/** The client-side decision on a customer's reply to a handoff offer
    (`detectHandoffAcceptance` in the page script of api/index.py). The
    regular expressions are abstracted to a matching relation: a reply is
    rejected when any rejection pattern matches, else accepted when any
    acceptance pattern matches, else unclear. */
module Handoff {

  datatype Verdict = Rejected | Accepted | Unclear

  /** JavaScript's `patterns.some(p => p.test(reply))`. */
  predicate AnyMatches<P>(patterns: seq<P>, reply: string, matches: (P, string) -> bool)
  {
    exists i :: 0 <= i < |patterns| && matches(patterns[i], reply)
  }

  /** The first pattern of the list that matches, scanning in order as
      `some` does. */
  function FirstMatch<P>(patterns: seq<P>, reply: string, matches: (P, string) -> bool): (r: int)
    ensures -1 <= r < |patterns|
    ensures r >= 0 ==> matches(patterns[r], reply)
    ensures forall i :: 0 <= i < |patterns| && (r < 0 || i < r) ==> !matches(patterns[i], reply)
  {
    if |patterns| == 0 then -1
    else if matches(patterns[0], reply) then 0
    else
      var k := FirstMatch(patterns[1..], reply, matches);
      assert forall i :: 1 <= i < |patterns| ==> patterns[i] == patterns[1..][i - 1];
      if k < 0 then -1 else k + 1
  }

  function Classify<P>(reply: string, rejection: seq<P>, acceptance: seq<P>, matches: (P, string) -> bool): (v: Verdict)
    ensures v == Rejected <==> AnyMatches(rejection, reply, matches)
    ensures v == Accepted <==> !AnyMatches(rejection, reply, matches) && AnyMatches(acceptance, reply, matches)
    ensures v == Unclear <==> !AnyMatches(rejection, reply, matches) && !AnyMatches(acceptance, reply, matches)
  {
    if FirstMatch(rejection, reply, matches) >= 0 then Rejected
    else if FirstMatch(acceptance, reply, matches) >= 0 then Accepted
    else Unclear
  }

  /** A matching rejection pattern decides the reply whatever the acceptance
      patterns say. */
  lemma RejectionOutranksAcceptance<P>(reply: string, rejection: seq<P>, acceptance: seq<P>, acceptance': seq<P>, matches: (P, string) -> bool)
    requires AnyMatches(rejection, reply, matches)
    ensures Classify(reply, rejection, acceptance, matches) == Classify(reply, rejection, acceptance', matches) == Rejected
  {
  }
}

=== FILE: lifecycle.dfy ===
/** Properties of the session table across several requests: a session is
    created, graded, its report fetched and the reports listed. */
module Lifecycle {

  import opened Wrappers
  import Text
  import Transcript
  import Formatting
  import opened Sessions

  /** A freshly created session is active, so no listing shows it. */
  lemma CreatedNotListed(st: Store, personality: Option<string>, id: Id, now: string, credential: Option<string>)
    requires KnownPersona(personality)
    ensures var rows := ListReports(Create(st, personality, id, now, credential).store);
            rows.Some? ==> forall x :: x in rows.value ==> x.sessionId != id
  {
  }

  /** A successful grading with a non-empty answer puts the session in the
      listing, with the score the grading answered with. */
  lemma GradedIsListed(st: Store, id: Id, duration: int, transcript: string, personality: Option<string>,
                       g: Grading, score: int)
    requires Valid(st) && id in st.records
    requires KnownPersona(personality)
    requires |g| > 0 && ScoreOf(g) == Some(score)
    ensures var r := GradeAssembled(st, Some(id), duration, Some(transcript), personality, Some(g), true);
            && r.reply == Graded(id, score)
            && var rows := ListReports(r.store);
            rows.Some? ==> exists x :: x in rows.value && x.sessionId == id && x.score == score
  {
  }

  /** After a successful grading with a non-empty answer the report can be
      fetched: from disk, or rebuilt when the rebuild succeeds. */
  lemma ReportAvailableAfterGrade(st: Store, id: Id, duration: int, transcript: string, personality: Option<string>,
                                  g: Grading, fileExists: bool)
    requires id in st.records
    requires KnownPersona(personality)
    requires |g| > 0
    ensures var r := GradeAssembled(st, Some(id), duration, Some(transcript), personality, Some(g), true);
            GetReport(r.store, id, fileExists, true).reply == SendFile(ReportPath(id), "training_report_" + id + ".pdf")
  {
  }

  /** An empty JSON object from the grading model completes the session with
      score 0, yet the listing and the report rebuild treat it as ungraded,
      because both test the grading for Python truthiness. */
  lemma EmptyGradingIsUnlisted(st: Store, id: Id, duration: int, transcript: string, personality: Option<string>)
    requires id in st.records
    requires KnownPersona(personality)
    ensures var r := GradeAssembled(st, Some(id), duration, Some(transcript), personality, Some(map[]), true);
            && r.reply == Graded(id, 0)
            && r.store.records[id].status == Completed
            && !Listed(r.store.records[id])
            && GetReport(r.store, id, false, true).reply.HttpError?
            && GetReport(r.store, id, false, true).reply.code == 400
  {
  }

  /** A score the model sends as text makes the report fail (its colour bands
      compare the score with numbers), so grading answers with a failure; yet
      the grading is stored, the session completed, and the listing shows it
      with that score read as an integer. */
  lemma TextScoreListedAfterFailedReport(st: Store, id: Id, duration: int, transcript: string,
                                         personality: Option<string>, n: int)
    requires Valid(st) && id in st.records
    requires KnownPersona(personality)
    ensures var g := map["overall_score" := JStr(Text.IntToStr(n))];
            var r := GradeAssembled(st, Some(id), duration, Some(transcript), personality, Some(g), false);
            && r.reply == GradeFailed(ReportFailed)
            && r.store.records[id].status == Completed
            && var rows := ListReports(r.store);
            rows.Some? ==> exists x :: x in rows.value && x.sessionId == id && x.score == n
  {
    var d := Text.IntToStr(n);
    assert "" + d + "" == d;
    ScoreOfText(n, "", "");
  }

  /** Grading again replaces what an earlier grading wrote: the last answer
      wins. */
  lemma RegradeOverwrites(st: Store, id: Id, d1: int, t1: Option<string>, p1: Option<string>, g1: Option<Grading>, w1: bool,
                          d2: int, t2: string, p2: Option<string>, g2: Grading, w2: bool)
    requires id in st.records
    requires KnownPersona(p2)
    ensures var st1 := GradeAssembled(st, Some(id), d1, t1, p1, g1, w1).store;
            var s := GradeAssembled(st1, Some(id), d2, Some(t2), p2, Some(g2), w2).store.records[id];
            && s.grading == Some(g2) && s.status == Completed
            && s.transcript == Some(t2) && s.duration == Some(d2)
  {
  }

  /** Fetching a report twice writes the table no more than fetching it once. */
  lemma GetReportIdempotent(st: Store, id: Id, fileExists: bool, reportWritten: bool)
    ensures var once := GetReport(st, id, fileExists, reportWritten).store;
            GetReport(once, id, fileExists, reportWritten).store == once
  {
  }

  const ScenarioId := "abcd1234"
  const ScenarioCreated := "2026-01-05T10:00:00"
  const ScenarioGrading: Grading := map["overall_score" := JNum(82)]
  const ScenarioRow := Summary(ScenarioId, "Pro", 82, "2026-01-05", "2m 5s")
  const ScenarioActive := Session(ScenarioId, "ruby_customer", Active, ScenarioCreated, None, None, None, None, None)

  /** A request that brings neither audio nor customer turns, only the
      client's own text. */
  function FallbackRequest(fallback: string): GradeRequest
  {
    GradeRequest(Some(ScenarioId), Some("ruby_customer"), 125, fallback, None, Some([]))
  }

  /** The row once graded from `fallback`. */
  function ScenarioRecord(fallback: string): Session
  {
    Session(ScenarioId, "ruby_customer", Completed, ScenarioCreated, Some(fallback),
            Some(ScenarioGrading), Some(125), None, Some(ReportPath(ScenarioId)))
  }

  lemma ScenarioCreate()
    ensures var c := Create(EmptyStore, Some("ruby_customer"), ScenarioId, ScenarioCreated, Some("ek_1"));
            && c.reply == Created(ScenarioId, Some("ek_1"), "alloy")
            && c.store == Store([ScenarioId], map[ScenarioId := ScenarioActive])
  {
  }

  /** With no audio and no turns the merged text is empty, so the fallback is
      graded when it is usable. */
  lemma FallbackTranscript(fallback: string)
    requires Transcript.Usable(fallback)
    ensures RequestTranscript(FallbackRequest(fallback)) == Some(fallback)
  {
  }

  lemma ScenarioGrade(fallback: string)
    requires Transcript.Usable(fallback)
    ensures var g := Grade(Store([ScenarioId], map[ScenarioId := ScenarioActive]), FallbackRequest(fallback), Some(ScenarioGrading), true);
            g.reply == Graded(ScenarioId, 82) && g.store == Store([ScenarioId], map[ScenarioId := ScenarioRecord(fallback)])
  {
    var st := Store([ScenarioId], map[ScenarioId := ScenarioActive]);
    FallbackTranscript(fallback);
    assert ScoreOf(ScenarioGrading) == Some(82);
    var row := GradedRow(ScenarioActive, 125, Some(fallback), Some("ruby_customer"), Some(ScenarioGrading), true);
    assert row == ScenarioRecord(fallback);
    assert GradeOutcome(ScenarioId, Some(fallback), Some("ruby_customer"), Some(ScenarioGrading), true) == Graded(ScenarioId, 82);
    assert Put(st, ScenarioId, row) == Store([ScenarioId], map[ScenarioId := row]);
  }

  lemma ScenarioList(fallback: string)
    ensures ListReports(Store([ScenarioId], map[ScenarioId := ScenarioRecord(fallback)])) == Some([ScenarioRow])
  {
    var st := Store([ScenarioId], map[ScenarioId := ScenarioRecord(fallback)]);
    Formatting.DurationExample();
    assert DateOf(ScenarioCreated) == "2026-01-05";
    assert "overall_score" in ScenarioGrading;
    assert Listed(ScenarioRecord(fallback));
    assert Summarize(ScenarioId, ScenarioRecord(fallback)) == Some(ScenarioRow);
    assert st.order[1..] == [];
    assert Rows(st.order[1..], st.records) == Some([]);
    assert [ScenarioRow] + [] == [ScenarioRow];
    assert Rows(st.order, st.records) == Some([ScenarioRow]);
    var r := ListReports(st).value;
    assert forall x :: x in r ==> x == ScenarioRow;
    Sorting.PermutationDistinctBy(r, [ScenarioRow], (x: Summary) => x.sessionId);
    assert |r| <= 1;
  }

  /** One call end to end: a Pro persona session is created, graded at 125
      seconds with score 82 from whatever usable text the client sent, then
      listed and its report fetched. */
  lemma FirstCallScenario(fallback: string)
    requires Transcript.Usable(fallback)
    ensures var c := Create(EmptyStore, Some("ruby_customer"), ScenarioId, ScenarioCreated, Some("ek_1"));
            var g := Grade(c.store, FallbackRequest(fallback), Some(ScenarioGrading), true);
            && c.reply == Created(ScenarioId, Some("ek_1"), "alloy")
            && g.reply == Graded(ScenarioId, 82)
            && ListReports(g.store) == Some([ScenarioRow])
            && GetReport(g.store, ScenarioId, false, true).reply == SendFile("reports/abcd1234.pdf", "training_report_abcd1234.pdf")
  {
    ScenarioCreate();
    var c := Create(EmptyStore, Some("ruby_customer"), ScenarioId, ScenarioCreated, Some("ek_1"));
    ScenarioGrade(fallback);
    var g := Grade(c.store, FallbackRequest(fallback), Some(ScenarioGrading), true);
    ScenarioList(fallback);
    ScenarioReport(fallback);
  }

  lemma ScenarioReport(fallback: string)
    ensures GetReport(Store([ScenarioId], map[ScenarioId := ScenarioRecord(fallback)]), ScenarioId, false, true).reply
         == SendFile("reports/abcd1234.pdf", "training_report_abcd1234.pdf")
  {
  }
}

=== FILE: sanitize.dfy ===
/** `sanitize_text` (api/index.py): the report's font only covers Latin-1, so
    a few typographic characters are spelled out in ASCII one after another,
    and whatever is still outside Latin-1 is then encoded with replacement,
    which turns each such character into `?`. */
module Sanitize {

  import opened Wrappers

  /** The substitutions, in the order the source applies them: rupee, euro,
      pound, em dash, en dash, ellipsis, bullet. */
  const Replacements: seq<(char, string)> := [
    ('\U{20B9}', "Rs."),
    ('\U{20AC}', "EUR"),
    ('\U{A3}', "GBP"),
    ('\U{2014}', "-"),
    ('\U{2013}', "-"),
    ('\U{2026}', "..."),
    ('\U{2022}', "*")
  ]

  const LastLatin1 := 255

  predicate IsLatin1(c: char) {
    c as int <= LastLatin1
  }

  /** `s.replace(c, rep)` for a one-character pattern. */
  function ReplaceChar(s: string, c: char, rep: string): string
  {
    if |s| == 0 then []
    else (if s[0] == c then rep else [s[0]]) + ReplaceChar(s[1..], c, rep)
  }

  /** The substitution loop: each pair is applied to the whole text in turn. */
  function ReplaceAll(s: string, reps: seq<(char, string)>): string
    decreases |reps|
  {
    if |reps| == 0 then s else ReplaceAll(ReplaceChar(s, reps[0].0, reps[0].1), reps[1..])
  }

  /** `s.encode('latin-1', 'replace').decode('latin-1')`. */
  function EncodeLatin1(s: string): (r: string)
    ensures |r| == |s|
    ensures forall i :: 0 <= i < |r| ==> IsLatin1(r[i])
    ensures forall i :: 0 <= i < |r| ==> r[i] == (if IsLatin1(s[i]) then s[i] else '?')
  {
    seq(|s|, i requires 0 <= i < |s| => if IsLatin1(s[i]) then s[i] else '?')
  }

  /** `sanitize_text`: `None` and the empty text give `""`. */
  function SanitizeText(text: Option<string>): (r: string)
    ensures text.None? || text == Some("") ==> r == ""
    ensures forall i :: 0 <= i < |r| ==> IsLatin1(r[i])
  {
    match text
    case None => ""
    case Some(t) => if t == "" then "" else EncodeLatin1(ReplaceAll(t, Replacements))
  }

  // ---------------------------------------------------------------------------
  // A character-by-character reference definition

  /** What one character becomes. */
  function SubstChar(c: char): (r: string)
    ensures forall i :: 0 <= i < |r| ==> IsLatin1(r[i]) && r[i] != '\U{A3}'
  {
    if c == '\U{20B9}' then "Rs."
    else if c == '\U{20AC}' then "EUR"
    else if c == '\U{A3}' then "GBP"
    else if c == '\U{2014}' || c == '\U{2013}' then "-"
    else if c == '\U{2026}' then "..."
    else if c == '\U{2022}' then "*"
    else if IsLatin1(c) then [c]
    else "?"
  }

  /** The text with every character replaced by its substitute. */
  function SubstEach(s: string): string
  {
    if |s| == 0 then "" else SubstChar(s[0]) + SubstEach(s[1..])
  }

  lemma {:induction false} ReplaceCharAppend(a: string, b: string, c: char, rep: string)
    ensures ReplaceChar(a + b, c, rep) == ReplaceChar(a, c, rep) + ReplaceChar(b, c, rep)
  {
    if |a| == 0 {
      assert a + b == b;
    } else {
      assert (a + b)[1..] == a[1..] + b;
      ReplaceCharAppend(a[1..], b, c, rep);
    }
  }

  lemma {:induction false} ReplaceAllAppend(a: string, b: string, reps: seq<(char, string)>)
    ensures ReplaceAll(a + b, reps) == ReplaceAll(a, reps) + ReplaceAll(b, reps)
    decreases |reps|
  {
    if |reps| > 0 {
      ReplaceCharAppend(a, b, reps[0].0, reps[0].1);
      ReplaceAllAppend(ReplaceChar(a, reps[0].0, reps[0].1), ReplaceChar(b, reps[0].0, reps[0].1), reps[1..]);
    }
  }

  lemma EncodeLatin1Append(a: string, b: string)
    ensures EncodeLatin1(a + b) == EncodeLatin1(a) + EncodeLatin1(b)
  {
  }

  lemma ReplaceCharAbsent(s: string, c: char, rep: string)
    requires c !in s
    ensures ReplaceChar(s, c, rep) == s
  {
  }

  /** A text free of every key is left alone by the substitution loop. */
  lemma {:induction false} ReplaceAllAbsent(s: string, reps: seq<(char, string)>)
    requires forall k :: 0 <= k < |reps| ==> reps[k].0 !in s
    ensures ReplaceAll(s, reps) == s
    decreases |reps|
  {
    if |reps| > 0 {
      ReplaceCharAbsent(s, reps[0].0, reps[0].1);
      ReplaceAllAbsent(s, reps[1..]);
    }
  }

  /** Every key lies above ASCII, every replacement is ASCII, and no key is
      listed twice. */
  ghost predicate WellFormed(reps: seq<(char, string)>)
  {
    && (forall j :: 0 <= j < |reps| ==> reps[j].0 as int > 127)
    && (forall j, i :: 0 <= j < |reps| && 0 <= i < |reps[j].1| ==> reps[j].1[i] as int <= 127)
    && (forall j, i :: 0 <= j < i < |reps| ==> reps[j].0 != reps[i].0)
  }

  lemma ReplacementsWellFormed()
    ensures WellFormed(Replacements)
  {
  }

  lemma WellFormedTail(reps: seq<(char, string)>)
    requires |reps| > 0 && WellFormed(reps)
    ensures WellFormed(reps[1..])
  {
  }

  /** The pair whose key is `c` turns it into its replacement, which the later
      pairs leave alone. */
  lemma {:induction false} ReplaceAllHit(c: char, reps: seq<(char, string)>, k: int)
    requires WellFormed(reps)
    requires 0 <= k < |reps| && reps[k].0 == c
    ensures ReplaceAll([c], reps) == reps[k].1
    decreases k
  {
    assert [c][1..] == [];
    WellFormedTail(reps);
    if k == 0 {
      assert ReplaceChar([c], reps[0].0, reps[0].1) == reps[0].1;
      forall j | 0 <= j < |reps[1..]| ensures reps[1..][j].0 !in reps[0].1 {
        assert reps[1..][j] == reps[j + 1];
      }
      ReplaceAllAbsent(reps[0].1, reps[1..]);
    } else {
      assert reps[0].0 != c;
      assert ReplaceChar([c], reps[0].0, reps[0].1) == [c];
      assert reps[1..][k - 1] == reps[k];
      ReplaceAllHit(c, reps[1..], k - 1);
    }
  }

  /** One character goes through the loop and the encoding as `SubstChar` says. */
  lemma OneChar(c: char)
    ensures EncodeLatin1(ReplaceAll([c], Replacements)) == SubstChar(c)
  {
    var rs := Replacements;
    ReplacementsWellFormed();
    if c == rs[0].0 {
      ReplaceAllHit(c, rs, 0);
    } else if c == rs[1].0 {
      ReplaceAllHit(c, rs, 1);
    } else if c == rs[2].0 {
      ReplaceAllHit(c, rs, 2);
    } else if c == rs[3].0 {
      ReplaceAllHit(c, rs, 3);
    } else if c == rs[4].0 {
      ReplaceAllHit(c, rs, 4);
    } else if c == rs[5].0 {
      ReplaceAllHit(c, rs, 5);
    } else if c == rs[6].0 {
      ReplaceAllHit(c, rs, 6);
    } else {
      ReplaceAllAbsent([c], rs);
    }
  }

  /** The sequential substitutions followed by the encoding agree with the
      character-by-character reference on every text. */
  lemma {:induction false} SanitizeCharwise(s: string)
    ensures SanitizeText(Some(s)) == SubstEach(s)
  {
    if |s| > 0 {
      SanitizeCharwise(s[1..]);
      assert s == [s[0]] + s[1..];
      ReplaceAllAppend([s[0]], s[1..], Replacements);
      EncodeLatin1Append(ReplaceAll([s[0]], Replacements), ReplaceAll(s[1..], Replacements));
      OneChar(s[0]);
      if s[1..] == "" {
        assert ReplaceAll("", Replacements) == "" by {
          ReplaceAllAbsent("", Replacements);
        }
      }
    }
  }

  lemma {:induction false} SubstEachLatin1(s: string)
    ensures forall i :: 0 <= i < |SubstEach(s)| ==> IsLatin1(SubstEach(s)[i]) && SubstEach(s)[i] != '\U{A3}'
  {
    if |s| > 0 {
      SubstEachLatin1(s[1..]);
    }
  }

  /** A Latin-1 character that is not a substitution key passes through. */
  lemma {:induction false} PlainLatin1Unchanged(s: string)
    requires forall i :: 0 <= i < |s| ==> IsLatin1(s[i]) && s[i] != '\U{A3}'
    ensures SanitizeText(Some(s)) == s
  {
    SanitizeCharwise(s);
    SubstEachIdentity(s);
  }

  lemma {:induction false} SubstEachIdentity(s: string)
    requires forall i :: 0 <= i < |s| ==> IsLatin1(s[i]) && s[i] != '\U{A3}'
    ensures SubstEach(s) == s
  {
    if |s| > 0 {
      SubstEachIdentity(s[1..]);
      assert s == [s[0]] + s[1..];
    }
  }

  /** Sanitising twice is sanitising once. */
  lemma SanitizeIdempotent(s: string)
    ensures SanitizeText(Some(SanitizeText(Some(s)))) == SanitizeText(Some(s))
  {
    SanitizeCharwise(s);
    SubstEachLatin1(s);
    PlainLatin1Unchanged(SanitizeText(Some(s)));
  }
}

=== FILE: sessions.dfy ===
/** The session lifecycle of api/index.py: the process-wide `sessions` table
    and the four operations that touch it — `create_session`,
    `grade_session`, `get_report` and `list_reports`.

    Every outside effect is an argument: the 8-character id (a slice of a
    fresh UUID), the creation time, the voice credential (absent when the
    provider call failed), the speech recogniser's answer, the grading model's
    decoded JSON (absent when the call or the decoding failed), whether the
    report file exists on disk, and whether writing the report succeeded. */
module Sessions {

  import opened Wrappers
  import opened Text
  import Sorting
  import Transcript
  import Formatting

  type Id = string

  // ---------------------------------------------------------------------------
  // Personas

  /** The fields of a persona that the lifecycle reads; its role-play script
      is configuration text handed to the voice model unchanged. */
  datatype Persona = Persona(name: string, voice: Option<string>)

  const Personas: map<string, Persona> := map[
    "blue_sapphire_customer" := Persona("Amateur", Some("echo")),
    "ruby_customer" := Persona("Pro", Some("alloy"))
  ]

  const DefaultVoice := "alloy"

  predicate KnownPersona(key: Option<string>) {
    key.Some? && key.value in Personas
  }

  // ---------------------------------------------------------------------------
  // Records

  /** A decoded JSON value; the grading model answers with a JSON object. */
  datatype Json =
    | JNull
    | JBool(b: bool)
    | JNum(n: int)
    | JStr(s: string)
    | JArr(items: seq<Json>)
    | JObj(fields: map<string, Json>)

  type Grading = map<string, Json>

  datatype Status = Active | Completed

  /** One row of the `sessions` table. `None` stands for both a Python `None`
      and a key not yet written. */
  datatype Session = Session(
    id: Id,
    personality: string,
    status: Status,
    createdAt: string,
    transcript: Option<string>,
    grading: Option<Grading>,
    duration: Option<int>,
    customerProfile: Option<Json>,
    reportPath: Option<string>)

  /** The table: a Python dict, so its keys keep their first insertion order. */
  datatype Store = Store(order: seq<Id>, records: map<Id, Session>)

  const EmptyStore := Store([], map[])

  /** The shape every reachable table has: each key listed once, in the
      records, stored under its own id and with a known persona. */
  ghost predicate Valid(st: Store)
  {
    && (forall i, j :: 0 <= i < j < |st.order| ==> st.order[i] != st.order[j])
    && (forall id :: id in st.records <==> id in st.order)
    && (forall id :: id in st.records ==> st.records[id].id == id && st.records[id].personality in Personas)
  }

  /** `sessions[id] = s`: a new key goes last, a present key keeps its place. */
  function Put(st: Store, id: Id, s: Session): (r: Store)
    ensures r.records == st.records[id := s]
    ensures id in st.records ==> r.order == st.order
    ensures id !in st.records ==> r.order == st.order + [id]
  {
    Store(if id in st.records then st.order else st.order + [id], st.records[id := s])
  }

  lemma PutValid(st: Store, id: Id, s: Session)
    requires Valid(st) && s.id == id && s.personality in Personas
    ensures Valid(Put(st, id, s))
  {
  }

  /** Python truthiness of `session.get("grading")`: present and non-empty. */
  predicate IsGraded(s: Session) {
    s.grading.Some? && |s.grading.value| > 0
  }

  /** `int(grading.get("overall_score", 0))`: a missing score is 0, a number
      is itself, a boolean is 0 or 1, and a text is read as `int` reads text;
      null, a list and an object make `int` raise. */
  function ScoreOf(g: Grading): (r: Option<int>)
    ensures "overall_score" !in g ==> r == Some(0)
    ensures "overall_score" in g && g["overall_score"].JNum? ==> r == Some(g["overall_score"].n)
    ensures "overall_score" in g && g["overall_score"].JBool? ==> r == Some(if g["overall_score"].b then 1 else 0)
    ensures "overall_score" in g && g["overall_score"].JStr? ==> r == IntFromText(g["overall_score"].s)
    ensures r.None? ==> "overall_score" in g && !g["overall_score"].JNum? && !g["overall_score"].JBool?
  {
    if "overall_score" !in g then Some(0)
    else match g["overall_score"]
      case JNum(n) => Some(n)
      case JBool(b) => Some(if b then 1 else 0)
      case JStr(text) => IntFromText(text)
      case _ => None
  }

  /** A score sent as decimal text, padded or not, reads as that integer. */
  lemma ScoreOfText(n: int, pre: string, post: string)
    requires IsBlank(pre) && IsBlank(post)
    ensures ScoreOf(map["overall_score" := JStr(pre + IntToStr(n) + post)]) == Some(n)
  {
    IntFromTextRoundTrip(n, pre, post);
  }

  function ReportPath(id: Id): string
  {
    "reports/" + id + ".pdf"
  }

  /** The result of an operation together with the table after it. */
  datatype Step<R> = Step(reply: R, store: Store)

  // ---------------------------------------------------------------------------
  // create_session

  datatype CreateReply =
    | Created(sessionId: Id, ephemeralKey: Option<string>, voice: string)
    | InvalidPersonality

  function VoiceOf(key: string): string
    requires key in Personas
  {
    Personas[key].voice.GetOr(DefaultVoice)
  }

  /** An unknown persona key is refused and stores nothing; a known one stores
      an active session with no transcript and no grading under `id`,
      replacing any session already there, and answers with the credential
      as obtained (absent when the provider call failed). */
  function Create(st: Store, personality: Option<string>, id: Id, now: string, credential: Option<string>): (r: Step<CreateReply>)
    ensures !KnownPersona(personality) ==> r.reply == InvalidPersonality && r.store == st
    ensures KnownPersona(personality) ==>
      && r.reply == Created(id, credential, VoiceOf(personality.value))
      && id in r.store.records
      && var s := r.store.records[id];
      && s.id == id && s.personality == personality.value && s.createdAt == now
      && s.status == Active && s.transcript.None? && s.grading.None?
      && s.duration.None? && s.customerProfile.None? && s.reportPath.None?
    ensures forall other :: other != id ==>
      (other in r.store.records <==> other in st.records)
      && (other in st.records ==> r.store.records[other] == st.records[other])
    ensures Valid(st) ==> Valid(r.store)
  {
    if !KnownPersona(personality) then Step(InvalidPersonality, st)
    else
      var key := personality.value;
      var s := Session(id, key, Active, now, None, None, None, None, None);
      assert Valid(st) ==> Valid(Put(st, id, s)) by {
        if Valid(st) { PutValid(st, id, s); }
      }
      Step(Created(id, credential, VoiceOf(key)), Put(st, id, s))
  }

  // ---------------------------------------------------------------------------
  // grade_session

  /** What the client posts, after form or JSON decoding: `turns` is `None`
      when `ai_responses` is not valid JSON, and `recognition` is `None` when
      no audio came or the recogniser failed. */
  datatype GradeRequest = GradeRequest(
    sessionId: Option<Id>,
    personality: Option<string>,
    duration: int,
    fallback: string,
    recognition: Option<Transcript.Recognition>,
    turns: Option<seq<Transcript.ClientTurn>>)

  datatype GradeError =
    | SessionNotFound
    | NoTranscript
    | UnknownPersonality   // the request's persona key misses the registry
    | GradingUnavailable   // the model call failed or its answer is not JSON
    | ReportFailed         // writing the report raised
    | ScoreUnreadable      // `int()` refused the overall score

  datatype GradeReply = Graded(sessionId: Id, score: int) | GradeFailed(error: GradeError)

  /** The transcript grading would use for this request; an `ai_responses`
      field that is not valid JSON counts as no customer turns. */
  function RequestTranscript(req: GradeRequest): (r: Option<string>)
    ensures req.turns.None? ==> r == Transcript.Assemble(req.recognition, [], req.fallback)
    ensures r.Some? ==> |Strip(r.value)| >= Transcript.MinTranscriptLength
  {
    Transcript.Assemble(req.recognition, req.turns.GetOr([]), req.fallback)
  }

  /** The table after a write to the row `id` alone: the same keys in the
      same order, every other row as it was. */
  ghost predicate OnlyTouches(st: Store, st': Store, id: Id)
  {
    && st'.order == st.order
    && id in st.records && id in st'.records
    && (forall other :: other in st'.records <==> other in st.records)
    && (forall other :: other in st.records && other != id ==> st'.records[other] == st.records[other])
  }

  /** The request got as far as the grading model's answer: it had a
      transcript and a known persona, and the model answered with JSON. */
  predicate ReachedGrading(transcript: Option<string>, personality: Option<string>, grading: Option<Grading>)
  {
    transcript.Some? && KnownPersona(personality) && grading.Some?
  }

  /** The answer of `grade_session` for a session that exists, given the
      assembled transcript: the first step that fails names the error. */
  function GradeOutcome(id: Id, transcript: Option<string>, personality: Option<string>,
                        grading: Option<Grading>, reportWritten: bool): (r: GradeReply)
    ensures r == GradeFailed(NoTranscript) <==> transcript.None?
    ensures r == GradeFailed(UnknownPersonality) <==> transcript.Some? && !KnownPersona(personality)
    ensures r == GradeFailed(GradingUnavailable) <==>
      transcript.Some? && KnownPersona(personality) && grading.None?
    ensures r == GradeFailed(ReportFailed) <==> ReachedGrading(transcript, personality, grading) && !reportWritten
    ensures r == GradeFailed(ScoreUnreadable) <==>
      ReachedGrading(transcript, personality, grading) && reportWritten && ScoreOf(grading.value).None?
    ensures r.Graded? <==>
      ReachedGrading(transcript, personality, grading) && reportWritten && ScoreOf(grading.value).Some?
    ensures r.Graded? ==> r.sessionId == id && Some(r.score) == ScoreOf(grading.value)
    ensures r != GradeFailed(SessionNotFound)
  {
    if transcript.None? then GradeFailed(NoTranscript)
    else if !KnownPersona(personality) then GradeFailed(UnknownPersonality)
    else if grading.None? then GradeFailed(GradingUnavailable)
    else if !reportWritten then GradeFailed(ReportFailed)
    else match ScoreOf(grading.value)
      case None => GradeFailed(ScoreUnreadable)
      case Some(score) => Graded(id, score)
  }

  /** The row of an existing session after `grade_session`, given the
      assembled transcript. The steps write one by one, so a failure keeps
      whatever the earlier steps wrote: the duration first, then the
      transcript, then grading, profile and status, then the report path. */
  function GradedRow(before: Session, duration: int, transcript: Option<string>, personality: Option<string>,
                     grading: Option<Grading>, reportWritten: bool): (after: Session)
    ensures after.id == before.id && after.personality == before.personality && after.createdAt == before.createdAt
    ensures after.duration == Some(duration)
    ensures transcript.None? ==> after == before.(duration := Some(duration))
    ensures transcript.Some? ==> after.transcript == transcript
    ensures ReachedGrading(transcript, personality, grading) ==>
      && after.grading == grading && after.status == Completed
      && after.customerProfile ==
           (if "customer_profile" in grading.value then Some(grading.value["customer_profile"])
            else before.customerProfile)
    ensures !ReachedGrading(transcript, personality, grading) ==>
      after.grading == before.grading && after.status == before.status
      && after.customerProfile == before.customerProfile
    ensures after.reportPath ==
      (if ReachedGrading(transcript, personality, grading) && reportWritten then Some(ReportPath(before.id))
       else before.reportPath)
  {
    var s1 := before.(duration := Some(duration));
    match transcript
    case None => s1
    case Some(t) =>
      var s2 := s1.(transcript := Some(t));
      if !KnownPersona(personality) then s2
      else match grading
        case None => s2
        case Some(g) =>
          var s3 := s2.(grading := Some(g),
                        customerProfile := if "customer_profile" in g then Some(g["customer_profile"]) else s2.customerProfile,
                        status := Completed);
          if !reportWritten then s3
          else s3.(reportPath := Some(ReportPath(before.id)))
  }

  /** `grade_session` once the transcript is assembled (`None` when no usable
      one came): an unknown session id changes nothing; otherwise only that
      session's row is rewritten. */
  function GradeAssembled(st: Store, sessionId: Option<Id>, duration: int, transcript: Option<string>,
                          personality: Option<string>, grading: Option<Grading>, reportWritten: bool): (r: Step<GradeReply>)
    ensures sessionId.None? || sessionId.value !in st.records ==>
      r == Step(GradeFailed(SessionNotFound), st)
    ensures sessionId.Some? && sessionId.value in st.records ==>
      var id := sessionId.value;
      && r.reply == GradeOutcome(id, transcript, personality, grading, reportWritten)
      && OnlyTouches(st, r.store, id)
      && r.store.records[id] == GradedRow(st.records[id], duration, transcript, personality, grading, reportWritten)
  {
    if sessionId.None? || sessionId.value !in st.records then
      Step(GradeFailed(SessionNotFound), st)
    else
      var id := sessionId.value;
      Step(GradeOutcome(id, transcript, personality, grading, reportWritten),
           Put(st, id, GradedRow(st.records[id], duration, transcript, personality, grading, reportWritten)))
  }

  /** `grade_session`: the transcript is assembled from the request, then
      graded. Whatever transcript it stores is the merged one when that is
      usable, else the client's fallback, and strips to at least the minimum
      length; with neither usable it answers "No transcript available". */
  function Grade(st: Store, req: GradeRequest, grading: Option<Grading>, reportWritten: bool): (r: Step<GradeReply>)
    ensures req.sessionId.None? || req.sessionId.value !in st.records ==>
      r == Step(GradeFailed(SessionNotFound), st)
    ensures req.sessionId.Some? && req.sessionId.value in st.records ==>
      var id := req.sessionId.value;
      var merged := Transcript.MergedTranscript(req.recognition, req.turns.GetOr([]));
      && OnlyTouches(st, r.store, id)
      && var stored := r.store.records[id].transcript;
      && (r.reply == GradeFailed(NoTranscript) <==> !Transcript.Usable(merged) && !Transcript.Usable(req.fallback))
      && (r.reply == GradeFailed(NoTranscript) ==> stored == st.records[id].transcript)
      && (r.reply != GradeFailed(NoTranscript) ==>
            && stored.Some? && |Strip(stored.value)| >= Transcript.MinTranscriptLength
            && stored == Some(if Transcript.Usable(merged) then merged else req.fallback))
  {
    GradeAssembled(st, req.sessionId, req.duration, RequestTranscript(req), req.personality, grading, reportWritten)
  }

  /** Grading keeps the table well-formed, whatever step it stops at. */
  lemma GradeKeepsValid(st: Store, sessionId: Option<Id>, duration: int, transcript: Option<string>,
                        personality: Option<string>, grading: Option<Grading>, reportWritten: bool)
    requires Valid(st)
    ensures Valid(GradeAssembled(st, sessionId, duration, transcript, personality, grading, reportWritten).store)
  {
  }

  // ---------------------------------------------------------------------------
  // get_report

  datatype ReportReply = SendFile(path: string, downloadName: string) | HttpError(code: int, message: string)

  /** `get_report`: an unknown id is 404; a missing file is rebuilt from the
      stored grading, which must be there (else 400); a failed rebuild is 500. */
  function GetReport(st: Store, id: Id, fileExists: bool, reportWritten: bool): (r: Step<ReportReply>)
    ensures id !in st.records ==> r == Step(HttpError(404, "Session not found"), st)
    ensures r.reply.SendFile? <==> id in st.records && (fileExists || (IsGraded(st.records[id]) && reportWritten))
    ensures r.reply.SendFile? ==> r.reply.path == ReportPath(id)
    ensures r.reply.HttpError? && r.reply.code == 400 <==>
      id in st.records && !fileExists && !IsGraded(st.records[id])
    ensures r.reply.HttpError? && r.reply.code == 500 <==>
      id in st.records && !fileExists && IsGraded(st.records[id]) && !reportWritten
    // only a rebuild writes, and it writes the report path alone
    ensures r.store != st ==> id in st.records && !fileExists && reportWritten && IsGraded(st.records[id])
    ensures id in st.records ==>
      && OnlyTouches(st, r.store, id)
      && (r.store.records[id] == st.records[id]
          || r.store.records[id] == st.records[id].(reportPath := Some(ReportPath(id))))
  {
    if id !in st.records then Step(HttpError(404, "Session not found"), st)
    else
      var s := st.records[id];
      var file := SendFile(ReportPath(id), "training_report_" + id + ".pdf");
      if fileExists then Step(file, st)
      else if !IsGraded(s) then
        Step(HttpError(400, "Session not yet graded. Please complete the session first."), st)
      else if !reportWritten then Step(HttpError(500, "Failed to generate report"), st)
      else Step(file, Put(st, id, s.(reportPath := Some(ReportPath(id)))))
  }

  lemma GetReportKeepsValid(st: Store, id: Id, fileExists: bool, reportWritten: bool)
    requires Valid(st)
    ensures Valid(GetReport(st, id, fileExists, reportWritten).store)
  {
  }

  // ---------------------------------------------------------------------------
  // list_reports

  datatype Summary = Summary(sessionId: Id, personality: string, score: int, date: string, duration: string)

  predicate Listed(s: Session) {
    s.status == Completed && IsGraded(s)
  }

  /** `created_at[:10]`, the calendar date of the ISO timestamp: its first
      ten characters, or the whole of a shorter text. */
  function DateOf(createdAt: string): (r: string)
    ensures |r| == if |createdAt| < 10 then |createdAt| else 10
    ensures r == createdAt[..|r|]
  {
    if |createdAt| <= 10 then createdAt else createdAt[..10]
  }

  /** The summary row of a listed session; `None` when building it would
      raise (unknown persona key or unreadable score). */
  function Summarize(id: Id, s: Session): (r: Option<Summary>)
    requires Listed(s)
    ensures r.None? <==> s.personality !in Personas || ScoreOf(s.grading.value).None?
    ensures r.Some? ==>
      && r.value.sessionId == id
      && r.value.personality == Personas[s.personality].name
      && Some(r.value.score) == ScoreOf(s.grading.value)
      && r.value.date == DateOf(s.createdAt)
      && r.value.duration == Formatting.FormatDuration(s.duration.GetOr(0))
  {
    if s.personality !in Personas then None
    else match ScoreOf(s.grading.value)
      case None => None
      case Some(score) =>
        Some(Summary(id, Personas[s.personality].name, score, DateOf(s.createdAt),
                     Formatting.FormatDuration(s.duration.GetOr(0))))
  }

  /** The summary rows of the listed sessions, in table order. */
  function Rows(order: seq<Id>, records: map<Id, Session>): (r: Option<seq<Summary>>)
    ensures r.None? <==>
      exists id :: id in order && id in records && Listed(records[id]) && Summarize(id, records[id]).None?
    ensures r.Some? ==> forall x :: x in r.value ==>
      && x.sessionId in order && x.sessionId in records && Listed(records[x.sessionId])
      && Summarize(x.sessionId, records[x.sessionId]) == Some(x)
    ensures r.Some? ==> forall id :: id in order && id in records && Listed(records[id]) ==>
      Summarize(id, records[id]).Some? && Summarize(id, records[id]).value in r.value
  {
    if |order| == 0 then Some([])
    else
      var rest := Rows(order[1..], records);
      var id := order[0];
      assert forall other :: other in order <==> other == id || other in order[1..] by {
        assert order == [id] + order[1..];
      }
      if id !in records || !Listed(records[id]) then rest
      else match (Summarize(id, records[id]), rest)
        case (Some(row), Some(rows)) => Some([row] + rows)
        case _ => None
  }

  ghost predicate NoRepeats(order: seq<Id>)
  {
    forall i, j :: 0 <= i < j < |order| ==> order[i] != order[j]
  }

  lemma {:induction false} RowsDistinct(order: seq<Id>, records: map<Id, Session>)
    requires NoRepeats(order)
    requires Rows(order, records).Some?
    ensures Sorting.DistinctBy(Rows(order, records).value, (x: Summary) => x.sessionId)
  {
    if |order| > 0 {
      var id := order[0];
      assert NoRepeats(order[1..]) by {
        forall i, j | 0 <= i < j < |order[1..]| ensures order[1..][i] != order[1..][j] {
          assert order[1..][i] == order[i + 1] && order[1..][j] == order[j + 1];
        }
      }
      assert id !in order[1..] by {
        forall k | 0 <= k < |order[1..]| ensures order[1..][k] != id {
          assert order[1..][k] == order[k + 1];
        }
      }
      RowsDistinct(order[1..], records);
      if id in records && Listed(records[id]) {
        var row := Summarize(id, records[id]).value;
        var rows := Rows(order[1..], records).value;
        assert Rows(order, records).value == [row] + rows;
        assert forall x :: x in rows ==> x.sessionId != row.sessionId;
        PrependDistinct(row, rows);
      }
    }
  }

  lemma PrependDistinct(row: Summary, rows: seq<Summary>)
    requires Sorting.DistinctBy(rows, (x: Summary) => x.sessionId)
    requires forall x :: x in rows ==> x.sessionId != row.sessionId
    ensures Sorting.DistinctBy([row] + rows, (x: Summary) => x.sessionId)
  {
  }

  function Date(s: Summary): string { s.date }

  /** Python's `reverse=True` on string keys: newer dates first. */
  predicate NotOlder(a: string, b: string) { LexLe(b, a) }

  lemma NotOlderIsTotalOrder()
    ensures Sorting.TotalOrder(NotOlder)
  {
    forall a, b ensures NotOlder(a, b) || NotOlder(b, a) {
      LexLeTotal(a, b);
    }
    forall a, b | NotOlder(a, b) && NotOlder(b, a) ensures a == b {
      LexLeAntisymmetric(a, b);
    }
    forall a, b, c | NotOlder(a, b) && NotOlder(b, c) ensures NotOlder(a, c) {
      LexLeTransitive(c, b, a);
    }
  }

  /** `list_reports`: one row per completed and graded session, newest date
      first, rows of one date in table order; `None` when building some row
      raises. */
  function ListReports(st: Store): (r: Option<seq<Summary>>)
    ensures r.None? <==>
      exists id :: id in st.order && id in st.records && Listed(st.records[id]) && Summarize(id, st.records[id]).None?
    ensures r.Some? ==> forall x :: x in r.value ==>
      && x.sessionId in st.records && Listed(st.records[x.sessionId])
      && Summarize(x.sessionId, st.records[x.sessionId]) == Some(x)
    ensures r.Some? ==> forall id :: id in st.order && id in st.records && Listed(st.records[id]) ==>
      Summarize(id, st.records[id]).Some? && Summarize(id, st.records[id]).value in r.value
    ensures r.Some? ==> forall i, j :: 0 <= i < j < |r.value| ==> LexLe(r.value[j].date, r.value[i].date)
    ensures r.Some? ==> forall d :: Sorting.WithKey(r.value, Date, d) == Sorting.WithKey(Rows(st.order, st.records).value, Date, d)
    ensures r.Some? && Valid(st) ==> Sorting.DistinctBy(r.value, (x: Summary) => x.sessionId)
  {
    match Rows(st.order, st.records)
    case None => None
    case Some(rows) =>
      NotOlderIsTotalOrder();
      var sorted := Sorting.Sort(rows, Date, NotOlder);
      assert forall x :: x in sorted <==> x in rows by {
        forall x ensures x in sorted <==> x in rows {
          assert x in sorted <==> x in multiset(sorted);
          assert x in rows <==> x in multiset(rows);
        }
      }
      assert Valid(st) ==> Sorting.DistinctBy(sorted, (x: Summary) => x.sessionId) by {
        if Valid(st) {
          RowsDistinct(st.order, st.records);
          Sorting.PermutationDistinctBy(sorted, rows, (x: Summary) => x.sessionId);
        }
      }
      Some(sorted)
  }
}

=== FILE: sorting.dfy ===
/** Python's `list.sort(key=...)` and `sorted(..., key=..., reverse=...)`: a
    stable sort by a key under a total order. The model sorts by insertion,
    and its contract pins the result down completely: the output is ordered by
    key, and for every key value the elements carrying it appear in their
    input order. */
module Sorting {

  /** `le` is a total order on keys (Python's `<=` on numbers or on strings,
      or its reverse). */
  ghost predicate TotalOrder<K(!new)>(le: (K, K) -> bool)
  {
    && (forall a, b :: le(a, b) || le(b, a))
    && (forall a, b :: le(a, b) && le(b, a) ==> a == b)
    && (forall a, b, c :: le(a, b) && le(b, c) ==> le(a, c))
  }

  /** Every earlier element's key is `le` every later element's key. */
  ghost predicate SortedBy<T, K>(s: seq<T>, key: T -> K, le: (K, K) -> bool)
  {
    forall i, j :: 0 <= i < j < |s| ==> le(key(s[i]), key(s[j]))
  }

  /** The elements of `s` whose key is `k`, in their order in `s`. */
  function WithKey<T, K(==)>(s: seq<T>, key: T -> K, k: K): seq<T>
  {
    if |s| == 0 then []
    else (if key(s[0]) == k then [s[0]] else []) + WithKey(s[1..], key, k)
  }

  lemma {:induction false} WithKeyAppend<T, K>(a: seq<T>, b: seq<T>, key: T -> K, k: K)
    ensures WithKey(a + b, key, k) == WithKey(a, key, k) + WithKey(b, key, k)
  {
    if |a| > 0 {
      WithKeyAppend(a[1..], b, key, k);
      assert (a + b)[1..] == a[1..] + b;
    } else {
      assert a + b == b;
    }
  }

  /** Puts `x` in front of the first element whose key is not below its own,
      so that `x` stays ahead of every element with an equal key. */
  function Insert<T, K>(x: T, s: seq<T>, key: T -> K, le: (K, K) -> bool): (r: seq<T>)
    ensures multiset(r) == multiset(s) + multiset{x}
  {
    if |s| == 0 then [x]
    else if le(key(x), key(s[0])) then [x] + s
    else
      assert s == [s[0]] + s[1..];
      [s[0]] + Insert(x, s[1..], key, le)
  }

  lemma {:induction false} InsertSorted<T, K(!new)>(x: T, s: seq<T>, key: T -> K, le: (K, K) -> bool)
    requires TotalOrder(le)
    requires SortedBy(s, key, le)
    ensures SortedBy(Insert(x, s, key, le), key, le)
  {
    if |s| > 0 && !le(key(x), key(s[0])) {
      var rest := Insert(x, s[1..], key, le);
      InsertSorted(x, s[1..], key, le);
      var r := [s[0]] + rest;
      forall i, j | 0 <= i < j < |r| ensures le(key(r[i]), key(r[j])) {
        if i == 0 {
          assert r[j] in multiset(rest);
          if r[j] != x {
            assert r[j] in multiset(s[1..]);
            var m :| 0 <= m < |s[1..]| && s[1..][m] == r[j];
            assert s[1..][m] == s[m + 1];
          }
        } else {
          assert r[i] == rest[i - 1] && r[j] == rest[j - 1];
        }
      }
    }
  }

  lemma {:induction false} InsertWithKey<T, K(!new)>(x: T, s: seq<T>, key: T -> K, le: (K, K) -> bool, k: K)
    requires TotalOrder(le)
    ensures WithKey(Insert(x, s, key, le), key, k) == (if key(x) == k then [x] else []) + WithKey(s, key, k)
  {
    var r := Insert(x, s, key, le);
    if |s| == 0 {
    } else if le(key(x), key(s[0])) {
      assert r[1..] == s;
    } else {
      var rest := Insert(x, s[1..], key, le);
      InsertWithKey(x, s[1..], key, le, k);
      assert le(key(s[0]), key(s[0]));
      assert key(x) != key(s[0]);
      assert r == [s[0]] + rest;
      assert r[0] == s[0] && r[1..] == rest;
      var h: seq<T> := if key(s[0]) == k then [s[0]] else [];
      var hx: seq<T> := if key(x) == k then [x] else [];
      assert WithKey(r, key, k) == h + WithKey(rest, key, k);
      assert WithKey(rest, key, k) == hx + WithKey(s[1..], key, k);
      assert WithKey(s, key, k) == h + WithKey(s[1..], key, k);
      assert h + (hx + WithKey(s[1..], key, k)) == hx + (h + WithKey(s[1..], key, k)) by {
        if key(x) == k {
          assert key(s[0]) != k;
        }
      }
    }
  }

  /** Stable insertion sort: sort the tail, then insert the head in front of
      its equal-keyed peers. */
  function Sort<T, K(!new)>(s: seq<T>, key: T -> K, le: (K, K) -> bool): (r: seq<T>)
    requires TotalOrder(le)
    ensures SortedBy(r, key, le)
    ensures multiset(r) == multiset(s)
    ensures forall k :: WithKey(r, key, k) == WithKey(s, key, k)
  {
    if |s| == 0 then []
    else
      var rest := Sort(s[1..], key, le);
      InsertSorted(s[0], rest, key, le);
      assert s == [s[0]] + s[1..];
      assert forall k :: WithKey(Insert(s[0], rest, key, le), key, k) == WithKey(s, key, k) by {
        forall k ensures WithKey(Insert(s[0], rest, key, le), key, k) == WithKey(s, key, k) {
          InsertWithKey(s[0], rest, key, le, k);
        }
      }
      Insert(s[0], rest, key, le)
  }

  lemma {:induction false} WithKeyMembers<T, K>(s: seq<T>, key: T -> K, k: K)
    ensures forall x :: x in WithKey(s, key, k) <==> x in s && key(x) == k
  {
    if |s| > 0 {
      WithKeyMembers(s[1..], key, k);
      assert s == [s[0]] + s[1..];
    }
  }

  /** The contract of `Sort` determines its result: two orderings of the same
      elements that are both sorted by key and agree on the order within every
      key are the same sequence. */
  lemma {:induction false} StableSortUnique<T, K(!new)>(r1: seq<T>, r2: seq<T>, key: T -> K, le: (K, K) -> bool)
    requires TotalOrder(le)
    requires SortedBy(r1, key, le) && SortedBy(r2, key, le)
    requires forall k :: WithKey(r1, key, k) == WithKey(r2, key, k)
    ensures r1 == r2
  {
    if |r1| == 0 && |r2| == 0 {
      return;
    }
    if |r1| == 0 {
      WithKeyMembers(r2, key, key(r2[0]));
      WithKeyMembers(r1, key, key(r2[0]));
      assert false;
    }
    if |r2| == 0 {
      WithKeyMembers(r1, key, key(r1[0]));
      WithKeyMembers(r2, key, key(r1[0]));
      assert false;
    }
    var a, b := r1[0], r2[0];
    WithKeyMembers(r1, key, key(b));
    WithKeyMembers(r2, key, key(b));
    WithKeyMembers(r1, key, key(a));
    WithKeyMembers(r2, key, key(a));
    assert b in WithKey(r2, key, key(b));
    var i :| 0 <= i < |r1| && r1[i] == b;
    assert le(key(a), key(b)) by {
      if i > 0 {
        assert le(key(r1[0]), key(r1[i]));
      } else {
        assert le(key(a), key(a));
      }
    }
    assert a in WithKey(r1, key, key(a));
    var j :| 0 <= j < |r2| && r2[j] == a;
    assert le(key(b), key(a)) by {
      if j > 0 {
        assert le(key(r2[0]), key(r2[j]));
      } else {
        assert le(key(b), key(b));
      }
    }
    assert key(a) == key(b);
    assert r1 == [a] + r1[1..] && r2 == [b] + r2[1..];
    assert WithKey(r1, key, key(a)) == [a] + WithKey(r1[1..], key, key(a));
    assert WithKey(r2, key, key(a)) == [b] + WithKey(r2[1..], key, key(a));
    assert WithKey(r1, key, key(a)) == WithKey(r2, key, key(a));
    assert a == WithKey(r1, key, key(a))[0] == WithKey(r2, key, key(a))[0] == b;
    forall k ensures WithKey(r1[1..], key, k) == WithKey(r2[1..], key, k) {
      var w1, w2 := WithKey(r1[1..], key, k), WithKey(r2[1..], key, k);
      var h: seq<T> := if key(a) == k then [a] else [];
      assert WithKey(r1, key, k) == h + w1;
      assert WithKey(r2, key, k) == h + w2;
      assert w1 == (h + w1)[|h|..] && w2 == (h + w2)[|h|..];
    }
    assert SortedBy(r1[1..], key, le) by {
      forall p, q | 0 <= p < q < |r1[1..]| ensures le(key(r1[1..][p]), key(r1[1..][q])) {
        assert r1[1..][p] == r1[p + 1] && r1[1..][q] == r1[q + 1];
      }
    }
    assert SortedBy(r2[1..], key, le) by {
      forall p, q | 0 <= p < q < |r2[1..]| ensures le(key(r2[1..][p]), key(r2[1..][q])) {
        assert r2[1..][p] == r2[p + 1] && r2[1..][q] == r2[q + 1];
      }
    }
    StableSortUnique(r1[1..], r2[1..], key, le);
  }

  /** Where `s[i]` sits among the elements sharing its key: just after those
      of its key that precede it. */
  lemma WithKeyIndex<T, K>(s: seq<T>, key: T -> K, i: int)
    requires 0 <= i < |s|
    ensures var w := WithKey(s, key, key(s[i]));
            var p := |WithKey(s[..i], key, key(s[i]))|;
            p < |w| && w[p] == s[i]
  {
    var k := key(s[i]);
    assert s == s[..i] + s[i..];
    WithKeyAppend(s[..i], s[i..], key, k);
    assert s[i..] == [s[i]] + s[i + 1..];
  }

  /** Two elements with one key keep their relative order in `WithKey`. */
  lemma WithKeyRankMonotone<T, K>(s: seq<T>, key: T -> K, i: int, j: int)
    requires 0 <= i < j <= |s|
    ensures |WithKey(s[..i], key, key(s[i]))| < |WithKey(s[..j], key, key(s[i]))|
  {
    var k := key(s[i]);
    assert s[..j] == s[..i] + s[i..j];
    WithKeyAppend(s[..i], s[i..j], key, k);
    assert s[i..j] == [s[i]] + s[i + 1..j];
  }

  /** No two elements of `s` share a value of `f`. */
  ghost predicate DistinctBy<T, K>(s: seq<T>, f: T -> K)
  {
    forall i, j :: 0 <= i < j < |s| ==> f(s[i]) != f(s[j])
  }

  lemma {:induction false} DistinctByOccursOnce<T, K>(s: seq<T>, f: T -> K, x: T)
    requires DistinctBy(s, f)
    ensures multiset(s)[x] <= 1
  {
    if |s| > 0 {
      assert s == [s[0]] + s[1..];
      assert DistinctBy(s[1..], f) by {
        forall i, j | 0 <= i < j < |s[1..]| ensures f(s[1..][i]) != f(s[1..][j]) {
          assert s[1..][i] == s[i + 1] && s[1..][j] == s[j + 1];
        }
      }
      DistinctByOccursOnce(s[1..], f, x);
      if x == s[0] {
        assert x !in s[1..] by {
          forall k | 0 <= k < |s[1..]| ensures s[1..][k] != x {
            assert s[1..][k] == s[k + 1];
          }
        }
      }
    }
  }

  /** Reordering keeps the values of `f` distinct. */
  lemma PermutationDistinctBy<T, K>(a: seq<T>, b: seq<T>, f: T -> K)
    requires multiset(a) == multiset(b)
    requires DistinctBy(b, f)
    ensures DistinctBy(a, f)
  {
    forall i, j | 0 <= i < j < |a| ensures f(a[i]) != f(a[j]) {
      if f(a[i]) == f(a[j]) {
        assert a[i] in multiset(b) && a[j] in multiset(b);
        if a[i] == a[j] {
          assert a == a[..j] + a[j..];
          assert a[i] in a[..j] && a[j] in a[j..];
          assert multiset(a)[a[i]] == multiset(a[..j])[a[i]] + multiset(a[j..])[a[i]];
          DistinctByOccursOnce(b, f, a[i]);
        }
      }
    }
  }
}

=== FILE: text.dfy ===
/** String helpers shared by the model: Python's whitespace stripping,
    `str.join`, code-point string comparison and decimal rendering of integers. */
module Text {

  import opened Wrappers

  /** The characters Python's `str.isspace` accepts (and so `str.strip` removes). */
  predicate IsSpace(c: char) {
    || c == ' '
    || '\t' <= c <= '\r'
    || '\U{1C}' <= c <= '\U{1F}'
    || c == '\U{85}' || c == '\U{A0}' || c == '\U{1680}'
    || '\U{2000}' <= c <= '\U{200A}'
    || c == '\U{2028}' || c == '\U{2029}' || c == '\U{202F}'
    || c == '\U{205F}' || c == '\U{3000}'
  }

  /** True when `str.strip()` of `s` is empty. */
  predicate IsBlank(s: string) {
    forall i :: 0 <= i < |s| ==> IsSpace(s[i])
  }

  function TrimRight(s: string): (r: string)
    ensures |r| <= |s| && r == s[..|r|]
    ensures forall i :: |r| <= i < |s| ==> IsSpace(s[i])
    ensures r == [] || !IsSpace(r[|r| - 1])
  {
    if |s| > 0 && IsSpace(s[|s| - 1]) then TrimRight(s[..|s| - 1]) else s
  }

  /** How many whitespace characters `s` starts with. */
  function LeadingSpaces(s: string): (n: nat)
    ensures n <= |s|
    ensures forall i :: 0 <= i < n ==> IsSpace(s[i])
    ensures n < |s| ==> !IsSpace(s[n])
  {
    if |s| > 0 && IsSpace(s[0]) then 1 + LeadingSpaces(s[1..]) else 0
  }

  /** Python's `s.strip()`: the slice of `s` left once leading and trailing
      whitespace is removed. */
  function Strip(s: string): (r: string)
    ensures LeadingSpaces(s) + |r| <= |s|
    ensures r == s[LeadingSpaces(s)..LeadingSpaces(s) + |r|]
    ensures forall i :: LeadingSpaces(s) + |r| <= i < |s| ==> IsSpace(s[i])
    ensures r == [] <==> IsBlank(s)
    ensures r != [] ==> !IsSpace(r[0]) && !IsSpace(r[|r| - 1])
  {
    var k := LeadingSpaces(s);
    var r := TrimRight(s[k..]);
    r
  }

  lemma StripIdempotent(s: string)
    ensures Strip(Strip(s)) == Strip(s)
  {
  }

  /** Python's `sep.join(parts)`. */
  function Join(parts: seq<string>, sep: string): string
  {
    if |parts| == 0 then ""
    else if |parts| == 1 then parts[0]
    else parts[0] + sep + Join(parts[1..], sep)
  }

  lemma {:induction false} JoinLength(parts: seq<string>, sep: string)
    ensures |Join(parts, sep)| == SumLengths(parts) + (if |parts| == 0 then 0 else (|parts| - 1) * |sep|)
  {
    if |parts| > 1 {
      JoinLength(parts[1..], sep);
    }
  }

  function SumLengths(parts: seq<string>): nat
  {
    if |parts| == 0 then 0 else |parts[0]| + SumLengths(parts[1..])
  }

  /** Python's `a <= b` on strings: code-point lexicographic order. */
  predicate LexLe(a: string, b: string)
  {
    if |a| == 0 then true
    else if |b| == 0 then false
    else a[0] < b[0] || (a[0] == b[0] && LexLe(a[1..], b[1..]))
  }

  lemma {:induction false} LexLeTotal(a: string, b: string)
    ensures LexLe(a, b) || LexLe(b, a)
  {
    if |a| > 0 && |b| > 0 && a[0] == b[0] {
      LexLeTotal(a[1..], b[1..]);
    }
  }

  lemma {:induction false} LexLeAntisymmetric(a: string, b: string)
    requires LexLe(a, b) && LexLe(b, a)
    ensures a == b
  {
    if |a| > 0 && |b| > 0 {
      LexLeAntisymmetric(a[1..], b[1..]);
      assert a == [a[0]] + a[1..];
      assert b == [b[0]] + b[1..];
    }
  }

  lemma {:induction false} LexLeTransitive(a: string, b: string, c: string)
    requires LexLe(a, b) && LexLe(b, c)
    ensures LexLe(a, c)
  {
    if |a| > 0 && |b| > 0 && |c| > 0 && a[0] == b[0] && b[0] == c[0] {
      LexLeTransitive(a[1..], b[1..], c[1..]);
    }
  }

  // ---------------------------------------------------------------------------
  // Decimal rendering, as Python's `str(n)` / f-string `{n}` does for an int.

  function DigitChar(d: nat): char
    requires d < 10
  {
    ('0' as int + d) as char
  }

  predicate IsDigit(c: char) {
    '0' <= c <= '9'
  }

  function DigitValue(c: char): nat
    requires IsDigit(c)
  {
    (c as int - '0' as int) as nat
  }

  /** Decimal digits of `n`, most significant first, without leading zeros. */
  function NatToStr(n: nat): (r: string)
    ensures |r| > 0 && forall i :: 0 <= i < |r| ==> IsDigit(r[i])
    ensures |r| > 1 ==> r[0] != '0'
  {
    if n < 10 then [DigitChar(n)] else NatToStr(n / 10) + [DigitChar(n % 10)]
  }

  function IntToStr(n: int): string
  {
    if n < 0 then "-" + NatToStr(-n) else NatToStr(n)
  }

  /** Reads a non-empty run of decimal digits. */
  function DigitsValue(s: string): nat
    requires forall i :: 0 <= i < |s| ==> IsDigit(s[i])
  {
    if |s| == 0 then 0 else DigitsValue(s[..|s| - 1]) * 10 + DigitValue(s[|s| - 1])
  }

  function ParseNat(s: string): Option<nat>
  {
    if |s| > 0 && (forall i :: 0 <= i < |s| ==> IsDigit(s[i])) then Some(DigitsValue(s)) else None
  }

  function ParseInt(s: string): Option<int>
  {
    if |s| > 0 && s[0] == '-' then
      match ParseNat(s[1..])
      case Some(n) => Some(-(n as int))
      case None => None
    else
      match ParseNat(s)
      case Some(n) => Some(n)
      case None => None
  }

  /** Python's `int(s)` on text: surrounding whitespace is ignored, then an
      optional sign and a run of ASCII decimal digits. */
  function IntFromText(s: string): (r: Option<int>)
    ensures r.Some? ==> !IsBlank(s)
    ensures var t := Strip(s);
            var u := if |t| > 0 && (t[0] == '+' || t[0] == '-') then t[1..] else t;
            r.Some? <==> |u| > 0 && forall i :: 0 <= i < |u| ==> IsDigit(u[i])
  {
    var t := Strip(s);
    if |t| > 0 && t[0] == '+' then
      match ParseNat(t[1..])
      case Some(n) => Some(n as int)
      case None => None
    else ParseInt(t)
  }

  /** Whitespace around a text that starts and ends with a non-space is
      exactly what `strip` removes. */
  lemma StripPadded(pre: string, x: string, post: string)
    requires IsBlank(pre) && IsBlank(post)
    requires |x| > 0 && !IsSpace(x[0]) && !IsSpace(x[|x| - 1])
    ensures Strip(pre + x + post) == x
  {
    var s := pre + x + post;
    assert forall i :: 0 <= i < |pre| ==> s[i] == pre[i];
    assert s[|pre|] == x[0];
    assert LeadingSpaces(s) == |pre|;
    var r := Strip(s);
    assert s[|pre| + |x| - 1] == x[|x| - 1];
    assert forall i :: |pre| + |x| <= i < |s| ==> s[i] == post[i - |pre| - |x|];
    assert |r| == |x|;
    assert s[|pre|..|pre| + |x|] == x;
  }

  lemma {:induction false} NatToStrRoundTrip(n: nat)
    ensures ParseNat(NatToStr(n)) == Some(n)
  {
    var s := NatToStr(n);
    if n >= 10 {
      NatToStrRoundTrip(n / 10);
      var p := NatToStr(n / 10);
      assert s[..|s| - 1] == p;
      assert DigitValue(s[|s| - 1]) == n % 10;
      assert DigitsValue(s) == DigitsValue(p) * 10 + n % 10;
    }
  }

  /** Decimal rendering is lossless: reading it back yields the integer. */
  lemma IntToStrRoundTrip(n: int)
    ensures ParseInt(IntToStr(n)) == Some(n)
  {
    if n < 0 {
      NatToStrRoundTrip(-n);
      assert IntToStr(n)[1..] == NatToStr(-n);
    } else {
      NatToStrRoundTrip(n);
    }
  }

  /** `int()` reads back the decimal text of an integer, whatever whitespace
      surrounds it, and with a leading `+` on a non-negative one. */
  lemma IntFromTextRoundTrip(n: int, pre: string, post: string)
    requires IsBlank(pre) && IsBlank(post)
    ensures IntFromText(pre + IntToStr(n) + post) == Some(n)
    ensures n >= 0 ==> IntFromText(pre + "+" + IntToStr(n) + post) == Some(n)
  {
    var d := IntToStr(n);
    assert !IsSpace(d[0]) && !IsSpace(d[|d| - 1]);
    StripPadded(pre, d, post);
    IntToStrRoundTrip(n);
    if n >= 0 {
      var signed := "+" + d;
      assert pre + "+" + d + post == pre + signed + post;
      StripPadded(pre, signed, post);
      NatToStrRoundTrip(n);
      assert signed[1..] == d;
    }
  }
}

=== FILE: transcript.dfy ===
/** The transcript assembly step of `grade_session` (api/index.py): the sales
    rep's recognised speech and the client's log of customer turns are labelled,
    merged in time order, rendered as `SPEAKER: text` blocks, and checked
    against a minimum length with a fallback to the client's raw transcript. */
module Transcript {

  import opened Wrappers
  import opened Text
  import Sorting

  datatype Speaker = SalesRep | Customer

  function Label(sp: Speaker): string
  {
    match sp
    case SalesRep => "SALES REP"
    case Customer => "CUSTOMER"
  }

  /** A labelled utterance with its offset in seconds from the call start. */
  datatype Segment = Segment(speaker: Speaker, text: string, timestamp: real)

  /** One segment of the speech recogniser's verbose answer. */
  datatype RecognizedSegment = RecognizedSegment(text: string, start: real)

  /** The speech recogniser's answer for the rep's audio: its segment list and
      its whole text. */
  datatype Recognition = Recognition(segments: seq<RecognizedSegment>, text: string)

  /** A customer turn from the client's `ai_responses` list; a key missing from
      the JSON object is `None`. A JSON `null` timestamp is not this case and
      is not modelled. */
  datatype ClientTurn = ClientTurn(text: Option<string>, timestamp: Option<real>)

  /** A transcript shorter than this once stripped counts as missing. */
  const MinTranscriptLength := 10

  const LineSeparator := "\n\n"

  // ---------------------------------------------------------------------------
  // Labelling the two sources

  /** Every recognised segment as a rep segment with its stripped text, blank
      or not. */
  function Labelled(gs: seq<RecognizedSegment>): (r: seq<Segment>)
    ensures |r| == |gs|
    ensures forall i :: 0 <= i < |gs| ==> r[i] == Segment(SalesRep, Strip(gs[i].text), gs[i].start)
  {
    seq(|gs|, i requires 0 <= i < |gs| => Segment(SalesRep, Strip(gs[i].text), gs[i].start))
  }

  /** The recogniser's segments, stripped, with the blank ones dropped: in
      the recogniser's order, by the same filter the rendering applies, so
      each segment with text is kept once per occurrence and in place. */
  function RepFromSegments(gs: seq<RecognizedSegment>): (r: seq<Segment>)
    ensures r == Kept(Labelled(gs))
    ensures forall x :: x in r ==> x.speaker == SalesRep && !IsBlank(x.text) && Strip(x.text) == x.text
  {
    if |gs| == 0 then []
    else
      var t := Strip(gs[0].text);
      StripIdempotent(gs[0].text);
      assert Labelled(gs)[1..] == Labelled(gs[1..]);
      assert IsBlank(t) <==> t == [] by {
        if t != [] {
          assert !IsSpace(t[0]);
        }
      }
      if t == [] then RepFromSegments(gs[1..])
      else [Segment(SalesRep, t, gs[0].start)] + RepFromSegments(gs[1..])
  }

  /** A recognised segment yields a rep segment, with its stripped text and
      its start time, exactly when its text is not blank. */
  lemma {:induction false} RepFromSegmentsMembers(gs: seq<RecognizedSegment>)
    ensures forall g :: g in gs && !IsBlank(g.text) ==> Segment(SalesRep, Strip(g.text), g.start) in RepFromSegments(gs)
    ensures forall x :: x in RepFromSegments(gs) ==> exists g :: g in gs && x == Segment(SalesRep, Strip(g.text), g.start)
  {
    if |gs| > 0 {
      var rest := RepFromSegments(gs[1..]);
      RepFromSegmentsMembers(gs[1..]);
      var t := Strip(gs[0].text);
      var head := Segment(SalesRep, t, gs[0].start);
      assert RepFromSegments(gs) == if t == [] then rest else [head] + rest;
      forall g | g in gs && !IsBlank(g.text)
        ensures Segment(SalesRep, Strip(g.text), g.start) in RepFromSegments(gs)
      {
        if g != gs[0] {
          assert g in gs[1..];
        }
      }
      forall x | x in RepFromSegments(gs)
        ensures exists g :: g in gs && x == Segment(SalesRep, Strip(g.text), g.start)
      {
        if x in rest {
          var g :| g in gs[1..] && x == Segment(SalesRep, Strip(g.text), g.start);
          assert g in gs;
        } else {
          assert gs[0] in gs;
        }
      }
    }
  }

  /** The rep's segments: none without a recognition (no audio, or the
      recogniser failed); the stripped non-blank segments when the answer has
      any; otherwise the whole text, unstripped, as one segment at offset 0
      when it is non-empty. */
  function RepSegments(rec: Option<Recognition>): (r: seq<Segment>)
    ensures forall x :: x in r ==> x.speaker == SalesRep
    ensures rec.None? ==> r == []
    ensures rec.Some? && |rec.value.segments| > 0 ==> r == RepFromSegments(rec.value.segments)
    ensures rec.Some? && |rec.value.segments| == 0 ==>
      r == if rec.value.text != "" then [Segment(SalesRep, rec.value.text, 0.0)] else []
  {
    match rec
    case None => []
    case Some(answer) =>
      if |answer.segments| > 0 then RepFromSegments(answer.segments)
      else if answer.text != "" then [Segment(SalesRep, answer.text, 0.0)]
      else []
  }

  /** Every client turn becomes one customer segment; a missing text is `""`
      and a missing timestamp is 0. */
  function CustomerSegments(turns: seq<ClientTurn>): (r: seq<Segment>)
    ensures |r| == |turns|
    ensures forall i :: 0 <= i < |r| ==> r[i].speaker == Customer
    ensures forall i :: 0 <= i < |r| ==> r[i].text == turns[i].text.GetOr("") && r[i].timestamp == turns[i].timestamp.GetOr(0.0)
  {
    seq(|turns|, i requires 0 <= i < |turns| =>
      Segment(Customer, turns[i].text.GetOr(""), turns[i].timestamp.GetOr(0.0)))
  }

  // ---------------------------------------------------------------------------
  // Merging

  function Timestamp(s: Segment): real { s.timestamp }

  /** Timestamps never decrease along `s`. */
  ghost predicate Chronological(s: seq<Segment>)
  {
    forall i, j :: 0 <= i < j < |s| ==> s[i].timestamp <= s[j].timestamp
  }

  predicate NotLater(a: real, b: real) { a <= b }

  lemma NotLaterIsTotalOrder()
    ensures Sorting.TotalOrder(NotLater)
  {
  }

  /** The rep segments followed by the customer segments, stably sorted by
      timestamp. */
  function Merge(reps: seq<Segment>, customers: seq<Segment>): (r: seq<Segment>)
    ensures forall i, j :: 0 <= i < j < |r| ==> r[i].timestamp <= r[j].timestamp
    ensures multiset(r) == multiset(reps) + multiset(customers)
    ensures forall t :: Sorting.WithKey(r, Timestamp, t)
                     == Sorting.WithKey(reps, Timestamp, t) + Sorting.WithKey(customers, Timestamp, t)
  {
    NotLaterIsTotalOrder();
    var r := Sorting.Sort(reps + customers, Timestamp, NotLater);
    assert forall i, j :: 0 <= i < j < |r| ==> NotLater(Timestamp(r[i]), Timestamp(r[j]));
    assert forall t :: Sorting.WithKey(reps + customers, Timestamp, t)
                    == Sorting.WithKey(reps, Timestamp, t) + Sorting.WithKey(customers, Timestamp, t) by {
      forall t {
        Sorting.WithKeyAppend(reps, customers, Timestamp, t);
      }
    }
    r
  }

  // ---------------------------------------------------------------------------
  // Rendering

  function Line(s: Segment): string
  {
    Label(s.speaker) + ": " + s.text
  }

  /** The segments whose text is not blank, in order. */
  function Kept(segs: seq<Segment>): (r: seq<Segment>)
    ensures forall x {:trigger x in r} :: x in r <==> x in segs && !IsBlank(x.text)
  {
    if |segs| == 0 then []
    else if IsBlank(segs[0].text) then Kept(segs[1..])
    else [segs[0]] + Kept(segs[1..])
  }

  /** Each segment with text is kept exactly as often as it occurs; a blank
      one never is. */
  lemma {:induction false} KeptCounts(segs: seq<Segment>)
    ensures forall x :: multiset(Kept(segs))[x] == if IsBlank(x.text) then 0 else multiset(segs)[x]
  {
    if |segs| > 0 {
      KeptCounts(segs[1..]);
      assert segs == [segs[0]] + segs[1..];
    }
  }

  /** The indices in `segs[from..]` of the segments with text, in increasing
      order. */
  ghost function NonBlankPositions(segs: seq<Segment>, from: nat): (p: seq<int>)
    requires from <= |segs|
    ensures forall k :: 0 <= k < |p| ==> from <= p[k] < |segs| && !IsBlank(segs[p[k]].text)
    ensures forall k, l :: 0 <= k < l < |p| ==> p[k] < p[l]
    decreases |segs| - from
  {
    if from == |segs| then []
    else
      var rest := NonBlankPositions(segs, from + 1);
      if IsBlank(segs[from].text) then rest else [from] + rest
  }

  /** No index of a segment with text is missing from the positions. */
  lemma {:induction false} NonBlankPositionsComplete(segs: seq<Segment>, from: nat)
    requires from <= |segs|
    ensures forall i :: from <= i < |segs| && !IsBlank(segs[i].text) ==> i in NonBlankPositions(segs, from)
    decreases |segs| - from
  {
    if from < |segs| {
      NonBlankPositionsComplete(segs, from + 1);
    }
  }

  /** The kept segments are the segments at those indices, one for one: the
      filter keeps the input order. */
  lemma {:induction false} KeptAtPositions(segs: seq<Segment>, from: nat)
    requires from <= |segs|
    ensures var p := NonBlankPositions(segs, from);
            && |Kept(segs[from..])| == |p|
            && forall k :: 0 <= k < |p| ==> segs[p[k]] == Kept(segs[from..])[k]
    decreases |segs| - from
  {
    if from < |segs| {
      KeptAtPositions(segs, from + 1);
      var rest := NonBlankPositions(segs, from + 1);
      var kr := Kept(segs[from + 1..]);
      var tail := segs[from..];
      assert tail[0] == segs[from] && tail[1..] == segs[from + 1..];
      if IsBlank(segs[from].text) {
        assert Kept(tail) == kr;
      } else {
        var p := [from] + rest;
        var kept := [segs[from]] + kr;
        assert Kept(tail) == kept;
        forall k | 0 <= k < |p| ensures segs[p[k]] == kept[k] {
          if k > 0 {
            assert p[k] == rest[k - 1] && kept[k] == kr[k - 1];
          }
        }
      }
    }
  }

  /** One line per segment, skipping those whose stripped text is empty (see
      `Strip`: that is exactly `IsBlank`), as the rendering loop does. */
  function Lines(segs: seq<Segment>): (r: seq<string>)
    ensures |r| == |Kept(segs)|
    ensures forall k :: 0 <= k < |r| ==> r[k] == Line(Kept(segs)[k])
  {
    if |segs| == 0 then []
    else if IsBlank(segs[0].text) then Lines(segs[1..])
    else [Line(segs[0])] + Lines(segs[1..])
  }

  /** The transcript text; it is empty exactly when no segment has text. */
  function Render(segs: seq<Segment>): (r: string)
    ensures r == "" <==> forall x :: x in segs ==> IsBlank(x.text)
  {
    var lines := Lines(segs);
    JoinLength(lines, LineSeparator);
    assert Kept(segs) == [] <==> forall x :: x in segs ==> IsBlank(x.text) by {
      if Kept(segs) != [] {
        assert Kept(segs)[0] in Kept(segs);
      } else {
        forall x | x in segs ensures IsBlank(x.text) {
          assert x !in Kept(segs);
        }
      }
    }
    assert |lines| > 0 ==> SumLengths(lines) > 0 by {
      if |lines| > 0 {
        assert |lines[0]| > 0;
      }
    }
    Join(lines, LineSeparator)
  }

  /** The merged transcript, or `""` when neither source has anything. It is
      empty exactly when no rep segment and no customer turn carries text. */
  function MergedTranscript(rec: Option<Recognition>, turns: seq<ClientTurn>): (r: string)
    ensures r == "" <==>
      && (forall x :: x in RepSegments(rec) ==> IsBlank(x.text))
      && (forall i :: 0 <= i < |turns| ==> IsBlank(turns[i].text.GetOr("")))
  {
    var reps := RepSegments(rec);
    var cs := CustomerSegments(turns);
    if |reps| > 0 || |turns| > 0 then
      var m := Merge(reps, cs);
      assert forall x :: x in m <==> x in reps || x in cs by {
        forall x ensures x in m <==> x in reps || x in cs {
          assert x in m <==> x in multiset(m);
          assert x in reps <==> x in multiset(reps);
          assert x in cs <==> x in multiset(cs);
        }
      }
      assert (forall x :: x in cs ==> IsBlank(x.text)) <==> (forall i :: 0 <= i < |turns| ==> IsBlank(turns[i].text.GetOr(""))) by {
        if forall x :: x in cs ==> IsBlank(x.text) {
          forall i | 0 <= i < |turns| ensures IsBlank(turns[i].text.GetOr("")) {
            assert cs[i] in cs;
          }
        }
      }
      Render(m)
    else ""
  }

  // ---------------------------------------------------------------------------
  // The fallback rule

  /** Neither empty nor shorter than the minimum once stripped. */
  predicate Usable(t: string)
  {
    !(t == "" || |Strip(t)| < MinTranscriptLength)
  }

  /** The merged transcript when usable, else the fallback when usable, else
      nothing (the "No transcript available" failure). */
  function ChooseTranscript(merged: string, fallback: string): (r: Option<string>)
    ensures r.Some? ==> |Strip(r.value)| >= MinTranscriptLength
    ensures r.Some? <==> Usable(merged) || Usable(fallback)
    ensures Usable(merged) ==> r == Some(merged)
    ensures !Usable(merged) && Usable(fallback) ==> r == Some(fallback)
  {
    var t := if !Usable(merged) then fallback else merged;
    if !Usable(t) then None else Some(t)
  }

  /** The whole assembly step of grading: the transcript, if any, is the
      merged text or the client's fallback, and it is long enough. */
  function Assemble(rec: Option<Recognition>, turns: seq<ClientTurn>, fallback: string): (r: Option<string>)
    ensures r.Some? ==> r.value == MergedTranscript(rec, turns) || r.value == fallback
    ensures r.Some? ==> |Strip(r.value)| >= MinTranscriptLength
    ensures r.None? <==> !Usable(MergedTranscript(rec, turns)) && !Usable(fallback)
  {
    ChooseTranscript(MergedTranscript(rec, turns), fallback)
  }

  // ---------------------------------------------------------------------------
  // Properties of the assembled transcript

  /** On equal timestamps every rep segment precedes every customer segment in
      the merge. */
  lemma RepBeforeCustomerOnTies(reps: seq<Segment>, customers: seq<Segment>, i: int, j: int)
    requires forall x :: x in reps ==> x.speaker == SalesRep
    requires forall x :: x in customers ==> x.speaker == Customer
    requires 0 <= i < |Merge(reps, customers)| && 0 <= j < |Merge(reps, customers)|
    requires Merge(reps, customers)[i].timestamp == Merge(reps, customers)[j].timestamp
    requires Merge(reps, customers)[i].speaker == SalesRep
    requires Merge(reps, customers)[j].speaker == Customer
    ensures i < j
  {
    var m := Merge(reps, customers);
    var t := m[i].timestamp;
    if j < i {
      var w := Sorting.WithKey(m, Timestamp, t);
      var wr := Sorting.WithKey(reps, Timestamp, t);
      var wc := Sorting.WithKey(customers, Timestamp, t);
      assert w == wr + wc;
      Sorting.WithKeyMembers(reps, Timestamp, t);
      Sorting.WithKeyMembers(customers, Timestamp, t);
      Sorting.WithKeyIndex(m, Timestamp, i);
      Sorting.WithKeyIndex(m, Timestamp, j);
      Sorting.WithKeyRankMonotone(m, Timestamp, j, i);
    }
  }

  lemma {:induction false} KeptPreservesOrder(segs: seq<Segment>)
    requires Chronological(segs)
    ensures Chronological(Kept(segs))
  {
    if |segs| > 0 {
      var tail := segs[1..];
      TailSorted(segs);
      KeptPreservesOrder(tail);
      var rest := Kept(tail);
      forall x | x in rest ensures segs[0].timestamp <= x.timestamp {
        assert x in tail;
        var k :| 0 <= k < |tail| && tail[k] == x;
        assert tail[k] == segs[k + 1];
      }
      if !IsBlank(segs[0].text) {
        PrependSorted(segs[0], rest);
      }
    }
  }

  lemma TailSorted(segs: seq<Segment>)
    requires |segs| > 0
    requires Chronological(segs)
    ensures Chronological(segs[1..])
  {
  }

  lemma PrependSorted(x: Segment, rest: seq<Segment>)
    requires Chronological(rest)
    requires forall y :: y in rest ==> x.timestamp <= y.timestamp
    ensures Chronological([x] + rest)
  {
  }

  /** The lines of the merged transcript: one per occurrence of a non-blank
      segment of either source, in non-decreasing timestamp order, each
      `SPEAKER: text`. */
  lemma MergedLines(reps: seq<Segment>, customers: seq<Segment>)
    ensures var kept := Kept(Merge(reps, customers));
            var lines := Lines(Merge(reps, customers));
            && |lines| == |kept|
            && (forall k :: 0 <= k < |lines| ==> lines[k] == Label(kept[k].speaker) + ": " + kept[k].text)
            && (forall x :: multiset(kept)[x] == if IsBlank(x.text) then 0 else multiset(reps)[x] + multiset(customers)[x])
            && Chronological(kept)
  {
    var m := Merge(reps, customers);
    KeptPreservesOrder(m);
    KeptCounts(m);
  }

  /** On equal timestamps every rep line precedes every customer line of the
      rendered transcript: dropping blank segments keeps the merge's order. */
  lemma KeptRepBeforeCustomerOnTies(reps: seq<Segment>, customers: seq<Segment>, i: int, j: int)
    requires forall x :: x in reps ==> x.speaker == SalesRep
    requires forall x :: x in customers ==> x.speaker == Customer
    requires 0 <= i < |Kept(Merge(reps, customers))| && 0 <= j < |Kept(Merge(reps, customers))|
    requires Kept(Merge(reps, customers))[i].timestamp == Kept(Merge(reps, customers))[j].timestamp
    requires Kept(Merge(reps, customers))[i].speaker == SalesRep
    requires Kept(Merge(reps, customers))[j].speaker == Customer
    ensures i < j
  {
    var m := Merge(reps, customers);
    assert m[0..] == m;
    KeptAtPositions(m, 0);
    var p := NonBlankPositions(m, 0);
    RepBeforeCustomerOnTies(reps, customers, p[i], p[j]);
  }

  /** Every segment with text gives its line. */
  lemma SegmentHasLine(segs: seq<Segment>, x: Segment)
    requires x in segs && !IsBlank(x.text)
    ensures Line(x) in Lines(segs)
  {
    assert x in Kept(segs);
    var k :| 0 <= k < |Kept(segs)| && Kept(segs)[k] == x;
    assert Lines(segs)[k] == Line(x);
  }

  /** Every customer turn with text gives its own `CUSTOMER: text` line in the
      merged transcript, wherever its timestamp puts it. */
  lemma CustomerTurnHasLine(reps: seq<Segment>, turns: seq<ClientTurn>, i: int)
    requires 0 <= i < |turns| && turns[i].text.Some? && !IsBlank(turns[i].text.value)
    ensures "CUSTOMER: " + turns[i].text.value in Lines(Merge(reps, CustomerSegments(turns)))
  {
    var cs := CustomerSegments(turns);
    var t := turns[i].text.value;
    var x := Segment(Customer, t, turns[i].timestamp.GetOr(0.0));
    assert x in cs by {
      assert cs[i] == x;
    }
    var m := Merge(reps, cs);
    assert x in m by {
      CustomerInMerge(reps, cs, x);
    }
    assert Line(x) in Lines(m) by {
      SegmentHasLine(m, x);
    }
    CustomerLine(t, x.timestamp);
  }

  lemma CustomerLine(t: string, at: real)
    ensures Line(Segment(Customer, t, at)) == "CUSTOMER: " + t
  {
  }

  lemma CustomerInMerge(reps: seq<Segment>, customers: seq<Segment>, x: Segment)
    requires x in customers
    ensures x in Merge(reps, customers)
  {
    assert x in multiset(customers);
    assert x in multiset(Merge(reps, customers));
  }

  /** When no source segment carries text, grading falls back to the client's
      raw transcript. */
  lemma BlankSourcesFallBack(rec: Option<Recognition>, turns: seq<ClientTurn>, fallback: string)
    requires forall x :: x in RepSegments(rec) ==> IsBlank(x.text)
    requires forall i :: 0 <= i < |turns| ==> turns[i].text.None? || IsBlank(turns[i].text.value)
    ensures Assemble(rec, turns, fallback) == if Usable(fallback) then Some(fallback) else None
  {
    assert forall i :: 0 <= i < |turns| ==> IsBlank(turns[i].text.GetOr(""));
    assert MergedTranscript(rec, turns) == "";
  }

  /** Two turns out of order across the sources come out in time order. */
  lemma TwoTurnExample()
    ensures Render(Merge([Segment(SalesRep, "Hi there", 0.2)], [Segment(Customer, "Hello", 0.5)]))
         == "SALES REP: Hi there\n\nCUSTOMER: Hello"
  {
    var a, b := Segment(SalesRep, "Hi there", 0.2), Segment(Customer, "Hello", 0.5);
    TwoTurnMerge(a, b);
    assert !IsSpace(a.text[0]) && !IsSpace(b.text[0]);
    TwoLines(a, b);
    TwoTurnText();
  }

  lemma TwoTurnText()
    ensures Line(Segment(SalesRep, "Hi there", 0.2)) + LineSeparator + Line(Segment(Customer, "Hello", 0.5))
         == "SALES REP: Hi there\n\nCUSTOMER: Hello"
  {
  }

  lemma TwoTurnMerge(a: Segment, b: Segment)
    requires a.timestamp < b.timestamp
    ensures Merge([a], [b]) == [a, b]
  {
  }

  lemma TwoLines(a: Segment, b: Segment)
    requires |a.text| > 0 && !IsSpace(a.text[0])
    requires |b.text| > 0 && !IsSpace(b.text[0])
    ensures Render([a, b]) == Line(a) + LineSeparator + Line(b)
  {
    assert [a, b][1..] == [b];
    assert [b][1..] == [];
    assert !IsBlank(a.text) && !IsBlank(b.text);
    assert Lines([b]) == [Line(b)] + Lines([]);
    assert Lines([a, b]) == [Line(a)] + Lines([b]);
    assert Lines([a, b]) == [Line(a), Line(b)];
    assert [Line(a), Line(b)][1..] == [Line(b)];
    assert Join([Line(a), Line(b)], LineSeparator) == Line(a) + LineSeparator + Join([Line(b)], LineSeparator);
  }
}

=== FILE: wrappers.dfy ===
/** Optional values, used where the source returns `None`, falls back to a
    default or fails without a value. */
module Wrappers {

  datatype Option<+T> = None | Some(value: T) {
    /** Python's `d.get(key, default)` once the lookup is done. */
    function GetOr(default: T): T {
      match this
      case Some(v) => v
      case None => default
    }
  }
}
